=== FILE: README.md ===
# Offline point-of-sale ledger, modelled in Dafny

This project models the core of an offline-first point-of-sale terminal (webwaka-suite-pos).
The terminal rings up a cart, prices it and completes the sale. It keeps the cashier's shift
ledger with its X- and Z-reports. Stock and cash adjustments are gated by approval, and every
record is written to a local outbox that a sync pass drains.

Each source file is one Dafny module, written in the form the source takes:

- `Records`: the record shapes of the local tables.
- `Storage`: the tables themselves, as the class `Db`. Keyed tables are maps. The
  transactions table is a sequence in insertion order. The sync outbox is a sequence in key order.
- `Currency`: the totals calculator. `CalculateCartTotals` is a loop proved against the
  function `Totals`.
- `Identity`: the identity store. `AuthStore` is a class with `Login`, `Logout` and
  `HasPermission`.
- `CartLines` and `CartEngine`: the cart's line arithmetic (pure functions) and the cart store
  (the class `CartStore`), whose methods update the active cart and the tables.
- `ShiftReports` and `ShiftLedger`: report aggregation and the shift store (the class
  `ShiftStore`). The store holds the current shift in memory as well as in its table row.
- `Sync`: the outbox drain, a loop over a snapshot of the queue. It is proved against a
  per-item step function (`Offer`) and a whole-pass function (`AfterPass`).
- `Adjustments`, `Movements`, `Supervisor`: the stock-adjustment form, the cash-movement form
  and the supervisor dashboard, including its approve handlers.
- `Payment`, `ProductSearch`, `Catalog`: the payment screen, the sale-screen search and the
  catalogue filter.
- `Text` and `Seqs`: ASCII lower-casing, substring search, de-duplication and filtering.

Money is an exact `real`. JavaScript's `Math.round` and `Math.ceil` are written out on it.
Clock readings, fresh ids and the issued token are parameters. The remote sync call is a
parameter `deliver` that says, for each item, whether it was delivered, refused or threw.

## Model

| member | source | states |
|---|---|---|
| Currency.JsRound | src/shared/utils/currency.ts:4 | `Math.round` lands within half a unit of its argument (halves go up) |
| Currency.JsCeil | src/modules/pos/components/PaymentModal.tsx:87-89 | `Math.ceil` is the least integer not below its argument |
| Currency.ToCents | src/shared/utils/currency.ts:39-43 | rounding to the cent gives whole cents within half a cent of the value |
| Currency.CalculateVat | src/shared/utils/currency.ts:3-5 | VAT is whole cents within half a cent of 7.5% of the amount |
| Currency.CalculateWithVat | src/shared/utils/currency.ts:7-9 | amount plus VAT is within half a cent of 107.5% of the amount |
| Currency.RoundToNaira | src/shared/utils/currency.ts:11-13 | the result is a multiple of the denomination and within half a denomination of the amount |
| Currency.ScaledMultiple | src/shared/utils/currency.ts:12 | the multiple `Math.round` picks is a multiple of the denomination and within half of one of the amount |
| Currency.RoundToNairaKeepsMultiples | src/shared/utils/currency.ts:11-13 | a multiple of the denomination is left as it is, so rounding is idempotent |
| Currency.Totals | src/shared/utils/currency.ts:19-45 | grand total is a multiple of 5 within 2.5 of the unrounded total; the three sums are whole cents within half a cent of the true sums |
| Currency.CalculateCartTotals | src/shared/utils/currency.ts:19-45 | the accumulating loop returns exactly `Totals` of the lines |
| Currency.EmptyCartTotals | src/shared/utils/currency.ts:20-44 | no lines give all five totals zero |
| Currency.RoundingAdjustmentIsCentRounded | src/shared/utils/currency.ts:34-36 | the grand total is a multiple of 5 less than 2.5 either way from the unrounded total; the stored adjustment is that step rounded to the cent, so within 2.505 |
| Currency.RoundedTotalsReconcileWithinTwoCents | src/shared/utils/currency.ts:38-44 | the returned cent-rounded fields reconcile with the grand total only to within 0.02 |
| Currency.RoundedTotalsMissByACent | src/shared/utils/currency.ts:38-44 | a one-line cart whose returned fields miss the grand total by exactly 0.01 |
| Currency.GrandTotalUsesUnroundedSums | src/shared/utils/currency.ts:34-43 | the grand total comes from the unrounded sums: a 2.4951 line totals 0, not the 5 its rounded subtotal would give |
| Currency.SingleLineExample | src/shared/utils/currency.ts:19-45 | price 300 by 2 at 7.5% gives 600, 45, 0, 645, 0 |
| Identity.SessionUser | src/services/identity.ts:108-119 | the logged-in user carries the account's id, username, name, role and permissions, with the chosen location; an unknown location is named "Unknown Location" |
| Identity.AccountFor | src/services/identity.ts:26-81 | exactly the user names cashier, supervisor and manager have an account; each is found under its own user name with password 1234; none is an admin |
| Identity.NoUserHasNoPermission | src/services/identity.ts:130-132 | without a user no permission holds |
| Identity.AdminHasEveryPermission | src/services/identity.ts:133 | an admin holds every permission |
| Identity.PermissionIsListed | src/services/identity.ts:134 | for any other role a permission holds exactly when it is listed on the user |
| Identity.BuiltInApprovalRights | src/services/identity.ts:26-81 | supervisor and manager may grant approvals and the cashier may not; only the manager may view reports |
| Identity.AuthStore.constructor | src/services/identity.ts:89-95 | the store starts with no user, no token, no error |
| Identity.AuthStore.Login | src/services/identity.ts:97-120 | bad user name or password sets the error and keeps user and token; otherwise the session user and new token are set and the error cleared; never left loading |
| Identity.AuthStore.Logout | src/services/identity.ts:122-124 | user, token and error are cleared |
| CartLines.NewCart | src/modules/pos/cartStore.ts:37-49 | a fresh cart is active, has no lines and all totals zero |
| CartLines.NewLine | src/modules/pos/cartStore.ts:75-87 | a new line is priced at the product's price, with no discount, and keeps the line invariant |
| CartLines.Requantified | src/modules/pos/cartStore.ts:111-113 | a re-quantified line keeps its id, product and unit price, and keeps the line invariant |
| CartLines.UpdateLines | src/modules/pos/cartStore.ts:107-117 | quantity change never adds lines or products; a quantity of 0 or less removes the line; otherwise the length is kept |
| CartLines.Repriced | src/modules/pos/cartStore.ts:91-97 | the repriced cart keeps id, status and creation time, takes the new lines and a grand total that is a multiple of 5 near their unrounded total |
| CartLines.Merged | src/modules/pos/cartStore.ts:62-70 | a merged line keeps its id, product, name, unit price, tax rate and discount; its quantity grows by the amount added; its total and tax come from the product's current price and rate |
| CartLines.AddLines | src/modules/pos/cartStore.ts:53-89 | adding a product already present keeps the line count, grows that line's quantity, keeps its unit price, leaves other lines alone; adding a new product appends one line at the end with price, no discount, total and tax from the product |
| CartLines.AddHoldsProduct | src/modules/pos/cartStore.ts:53-89 | after adding, the list holds a line for the product |
| CartLines.AddKeepsProductsUnique | src/modules/pos/cartStore.ts:53-89 | adding keeps one line per product and the product set grows by just that product |
| CartLines.AddSameProductTwice | src/modules/pos/cartStore.ts:53-89 | adding 2 and then 3 of a product gives one line of 5 under the first line id |
| CartLines.MergeKeepsConsistentAtSamePrice | src/modules/pos/cartStore.ts:62-70 | a merge keeps the line invariant while the product's price and tax rate are unchanged |
| CartLines.MergeAfterPriceChangeIsInconsistent | src/modules/pos/cartStore.ts:62-70 | after a price change a merged line's total disagrees with unit price times quantity |
| CartLines.UpdateUnknownLine | src/modules/pos/cartStore.ts:107-117 | an unknown line id leaves the lines unchanged |
| CartLines.UpdateLinesAppend | src/modules/pos/cartStore.ts:107-117 | the update works line by line, so it distributes over concatenation |
| CartLines.UpdateOneLine | src/modules/pos/cartStore.ts:107-117 | on a line id that occurs once, just that line is dropped or re-quantified; the others keep order and values |
| CartLines.UpdateSingleLine | src/modules/pos/cartStore.ts:107-117 | a single line is dropped at quantity 0 or less, else re-quantified |
| CartLines.UpdateKeepsProductsUnique | src/modules/pos/cartStore.ts:107-117 | changing quantities keeps one line per product |
| CartLines.UpdateNeverAddsLines | src/modules/pos/cartStore.ts:107-117 | the line count never grows, and strictly shrinks when a present line is removed |
| CartLines.UpdateDropsMatch | src/modules/pos/cartStore.ts:110 | removing a present line shortens the list |
| CartEngine.ChangeDue | src/modules/pos/cartStore.ts:153-155 | change is never negative, is zero for non-cash, and is the excess tendered for cash |
| CartEngine.SaleTransaction | src/modules/pos/cartStore.ts:157-179 | the sale records the grand total (not the tender), the change, one SALE_COMPLETED audit entry, completed and pending sync |
| CartEngine.CashSaleBalances | src/modules/pos/cartStore.ts:153-161 | a cash sale tendered in full records amount plus change equal to the tender |
| CartEngine.UnderpaidCashRecordedInFull | src/modules/pos/cartStore.ts:153-161 | an underpaid cash sale is recorded at the full grand total with no change |
| CartEngine.WithCartStatus | src/modules/pos/cartStore.ts:140 | a status update changes only the status of that row, if it exists |
| CartEngine.RepriceCart | src/modules/pos/cartStore.ts:91-97 | the recomputed cart is the repriced cart over the new lines |
| CartEngine.CartWriteKeyed | src/modules/pos/cartStore.ts:99 | writing a cart under its own id keeps every row keyed by its id |
| CartEngine.CartStore.constructor | src/modules/pos/cartStore.ts:23-25 | the store starts with no active cart, sharing its tables with the shift store |
| CartEngine.CartStore.InitCart | src/modules/pos/cartStore.ts:27-32 | some active cart row becomes the active cart; with none the active cart is kept |
| CartEngine.CartStore.AddToCart | src/modules/pos/cartStore.ts:34-101 | the cart (fresh if none) gets the merged or appended line, new totals, and is written over its row; one line per product is kept |
| CartEngine.CartStore.UpdateQuantity | src/modules/pos/cartStore.ts:103-129 | a no-op without a cart; otherwise the line is changed or dropped, totals recomputed and the row written |
| CartEngine.CartStore.RemoveFromCart | src/modules/pos/cartStore.ts:131-134 | behaves as a quantity update to 0: the line is gone |
| CartEngine.CartStore.ClearCart | src/modules/pos/cartStore.ts:136-142 | a no-op without a cart; otherwise the row is cancelled and no cart is active |
| CartEngine.CartStore.CompleteTransaction | src/modules/pos/cartStore.ts:144-197 | refused without cart or user; otherwise one transaction, cart completed, one outbox item, no active cart; a cash sale adds the grand total to the in-memory shift and writes its three sale counters over the shift's row (no row: nothing written), other payments leave the shift alone |
| ShiftReports.Window | src/modules/shifts/shiftStore.ts:106-109 | the report window holds only transactions created in `[openedAt, now)`, all of them, in insertion order |
| ShiftReports.WindowCounts | src/modules/shifts/shiftStore.ts:106-109 | each transaction of the window occurs there as often as in the table; others not at all |
| ShiftReports.SumPaid | src/modules/shifts/shiftStore.ts:115 | the sales total of non-negative amounts is non-negative |
| ShiftReports.SumPaidConcat | src/modules/shifts/shiftStore.ts:115 | the total over two runs of transactions is the sum of their totals |
| ShiftReports.SumPaidRemove | src/modules/shifts/shiftStore.ts:115 | taking one transaction out lowers the total by its amount |
| ShiftReports.SumPaidOrderFree | src/modules/shifts/shiftStore.ts:115 | the total depends only on which transactions there are, not on their order |
| ShiftReports.SumPaidByIsFilteredSum | src/modules/shifts/shiftStore.ts:116-118 | a per-method total is the total over the transactions filtered to that method |
| ShiftReports.SumPaidAppendOne | src/modules/shifts/shiftStore.ts:115 | one more transaction adds its amount to the sales total |
| ShiftReports.MethodSumsPartition | src/modules/shifts/shiftStore.ts:116-119 | the four per-method sums add up to the sales total |
| ShiftReports.XReportOf | src/modules/shifts/shiftStore.ts:111-120 | the count is the window's size; cash, card and transfer add up to the total less mobile money |
| ShiftReports.ZReportOf | src/modules/shifts/shiftStore.ts:143-157 | the X figures plus expected and counted cash with variance = counted − expected; approved time only with an approver |
| ShiftLedger.OpenedShift | src/modules/shifts/shiftStore.ts:43-57 | a new shift is open, the user's own, expected cash = float, counters zero, no reports |
| ShiftLedger.ClosedShift | src/modules/shifts/shiftStore.ts:77-87 | the closed shift has the counted cash and its difference from expected cash; counters and reports kept |
| ShiftLedger.WithSale | src/modules/shifts/shiftStore.ts:169-174 | one more sale raises count by 1 and both sales total and expected cash by the amount |
| ShiftLedger.MergeShiftRow | src/modules/shifts/shiftStore.ts:89 | a whole-shift write keeps the stored Z-report when the written shift has none |
| ShiftLedger.WriteShift | src/modules/shifts/shiftStore.ts:89 | only the shift's own row changes, if it exists |
| ShiftLedger.SaleRow | src/modules/shifts/shiftStore.ts:176-180 | the row takes the three counters of the in-memory shift and keeps the rest |
| ShiftLedger.SaleOverwritesRowCash | src/modules/shifts/shiftStore.ts:176-180 | a row cash figure that differs from memory does not survive the next sale |
| ShiftLedger.ShiftStore.constructor | src/modules/shifts/shiftStore.ts:18-21 | the store starts with no current shift |
| ShiftLedger.ShiftStore.LoadCurrentShift | src/modules/shifts/shiftStore.ts:23-37 | no user gives none; otherwise a shift is current exactly when the user has an open shift at the location, and it is that row |
| ShiftLedger.ShiftStore.OpenShift | src/modules/shifts/shiftStore.ts:39-70 | refused without a user; otherwise the opened shift is stored, queued with action open, and current |
| ShiftLedger.ShiftStore.CloseShift | src/modules/shifts/shiftStore.ts:72-99 | refused without shift or user; otherwise the closed shift is written, queued with action close, and no shift is current |
| ShiftLedger.ShiftStore.GenerateXReport | src/modules/shifts/shiftStore.ts:101-131 | one report appended to the reports in memory and on the row; nothing else changes |
| ShiftLedger.ShiftStore.GenerateZReport | src/modules/shifts/shiftStore.ts:133-163 | the Z-report is stored, then the shift is closed; the row ends closed with that report and its variance as difference |
| ShiftLedger.ShiftStore.UpdateSalesTotal | src/modules/shifts/shiftStore.ts:165-183 | a no-op without a shift; otherwise one more sale in memory and its counters written over the row |
| Storage.UpdateRow | src/services/syncService.ts:13-19 | an update changes only the named row, and only if it exists |
| Storage.RemoveItem | src/services/syncService.ts:10 | deleting a key leaves no item with that key and keeps every other item, in order |
| Storage.ReplaceItem | src/services/syncService.ts:22-25 | an update by key replaces exactly the items with that key |
| Storage.RemoveOnly | src/services/syncService.ts:10 | deleting the key of an item that occurs once removes just that item |
| Storage.ReplaceOnly | src/services/syncService.ts:22-25 | updating the key of an item that occurs once replaces just that item |
| Storage.Db.constructor | src/data/db/index.ts:178-191 | the tables start empty and valid |
| Storage.Db.AddSyncItem | src/services/syncService.ts:4-6 | a new item with retries 0 is appended under the next key; the outbox stays in key order |
| Sync.Attempted | src/services/syncService.ts:22-25 | a failed attempt adds one retry and stamps the time; nothing else of the item changes |
| Sync.AfterPass | src/services/syncService.ts:3-35 | a pass never adds items, and leaves only items of the queue |
| Sync.MarkRows | src/services/syncService.ts:14-19 | only the rows named by delivered items are marked; the rest stay |
| Sync.MarkTransactions | src/services/syncService.ts:12-13 | only the named transactions are marked synced with the sync time |
| Sync.StubPassEmptiesQueue | src/services/syncService.ts:37-44 | with the stub delivery a pass empties the queue |
| Sync.FailedItemStays | src/services/syncService.ts:21-33 | an undelivered item stays, attempted once more |
| Sync.LeftItemsWereRefused | src/services/syncService.ts:21-33 | every item left is an undelivered item with one more retry, otherwise unchanged |
| Sync.ThrowIsRefusal | src/services/syncService.ts:27-33 | a delivery that throws is handled exactly as one answering false |
| Sync.ThreeFailedPasses | src/services/syncService.ts:21-33 | an item refused on three passes stays queued, three retries up |
| Sync.SingleRefusal | src/services/syncService.ts:21-26 | a refused single item is kept with one more retry |
| Sync.AfterPassOrdered | src/services/syncService.ts:3-35 | a pass keeps the outbox in key order |
| Sync.Offer | src/services/syncService.ts:7-33 | one item: on delivery its row is deleted and only its entity marked; otherwise its row is attempted once more |
| Sync.PassedAll | src/services/syncService.ts:3-35 | offering every item of the snapshot in order gives the whole-pass result |
| Sync.OfferStep | src/services/syncService.ts:6-34 | offering the next snapshot item advances the pass by that item |
| Sync.SyncOne | src/services/syncService.ts:7-33 | the loop body changes the tables exactly as `Offer` says |
| Sync.ProcessSyncQueue | src/services/syncService.ts:3-35 | after the loop the outbox is the pass's leftovers and exactly the delivered entities are marked synced |
| Adjustments.ProductNameOf | src/modules/pos/components/InventoryAdjustmentModal.tsx:56-61 | the recorded name is the product's name, else "Unknown"; never empty |
| Adjustments.AdjustmentRecord | src/modules/pos/components/InventoryAdjustmentModal.tsx:58-74 | approved exactly when the submitter may grant approvals, with approver fields set only then; pending sync at the user's location |
| Adjustments.WithStockChange | src/modules/pos/components/InventoryAdjustmentModal.tsx:85-92 | only that product's stock moves by the change, if the product exists |
| Adjustments.SubmitAdjustment | src/modules/pos/components/InventoryAdjustmentModal.tsx:51-98 | nothing without a user; otherwise one record and one outbox item, and stock moves only when approved |
| Movements.CashDelta | src/modules/pos/components/CashMovementModal.tsx:79 | a drop takes the amount out of the register; anything else puts it in |
| Movements.DropLeavesRegister | src/modules/pos/components/CashMovementModal.tsx:55-56 | a drop moves register to safe; pickup and float adjustment move safe to register |
| Movements.MovementRecord | src/modules/pos/components/CashMovementModal.tsx:51-67 | approved exactly when the submitter may grant approvals, with approver fields set only then; tied to the current shift |
| Movements.MovedRow | src/modules/pos/components/CashMovementModal.tsx:80-82 | the row's expected cash becomes the in-memory figure plus the change; nothing else |
| Movements.SubmitMovement | src/modules/pos/components/CashMovementModal.tsx:46-89 | nothing without user or shift; otherwise one record and one outbox item, and the row moves only when approved, leaving memory out of step |
| Movements.SubmitMovementInStep | src/modules/pos/components/CashMovementModal.tsx:78-83 | as written, except that an approved movement also moves the in-memory shift, so row and memory stay in step |
| Movements.DropLostOnNextCashSale | src/modules/shifts/shiftStore.ts:165-183 | a 300 drop on 1000 followed by a 500 cash sale leaves the row at 1500 |
| Movements.DropKeptInStep | src/modules/shifts/shiftStore.ts:165-183 | with the corrected submit the same drop and sale leave row and memory at 1200 |
| Supervisor.DashboardAccess | src/modules/pos/SupervisorDashboard.tsx:43 | no user and the cashier are kept out; supervisor and manager may view |
| Supervisor.TodayTransactions | src/modules/pos/SupervisorDashboard.tsx:15-21 | today's list holds only transactions created strictly after midnight, all of them, in insertion order |
| Supervisor.TodayCounts | src/modules/pos/SupervisorDashboard.tsx:15-21 | each of today's transactions occurs in the list as often as in the table; others not at all |
| Supervisor.SaleAtMidnightNotCounted | src/modules/pos/SupervisorDashboard.tsx:19 | a sale at exactly midnight is not counted that day |
| Supervisor.TodaySales | src/modules/pos/SupervisorDashboard.tsx:38 | the day's takings are non-negative when the amounts are, and 0 when nothing was sold after midnight |
| Supervisor.TodayCount | src/modules/pos/SupervisorDashboard.tsx:39 | the day's count is at most the table's size; it equals it exactly when every transaction is from today, and is 0 exactly when none is |
| Supervisor.TodayGrowsByOneSale | src/modules/pos/SupervisorDashboard.tsx:38-39 | one more sale today raises the count by one and the takings by its amount |
| Supervisor.PendingAdjustments | src/modules/pos/SupervisorDashboard.tsx:40 | the pending count is 0 exactly when no pending adjustment is at the user's location |
| Supervisor.PendingAdjustmentIds | src/modules/pos/SupervisorDashboard.tsx:23-26 | the pending adjustments are exactly those pending at the user's location |
| Supervisor.RecentMovements | src/modules/pos/SupervisorDashboard.tsx:28-31 | the list is the latest 20 (or fewer), latest first |
| Supervisor.CountPending | src/modules/pos/SupervisorDashboard.tsx:41 | the pending count is at most the list's length, and equals it exactly when every movement is pending |
| Supervisor.CountPendingAppend | src/modules/pos/SupervisorDashboard.tsx:41 | the count over two lists joined is the sum of their counts |
| Supervisor.CountPendingSingle | src/modules/pos/SupervisorDashboard.tsx:41 | one movement counts one exactly when it is pending |
| Supervisor.PendingMovements | src/modules/pos/SupervisorDashboard.tsx:28-41 | the pending movement count never exceeds 20 |
| Supervisor.CountPendingNone | src/modules/pos/SupervisorDashboard.tsx:41 | a list with no pending movement counts none |
| Supervisor.OldPendingNotCounted | src/modules/pos/SupervisorDashboard.tsx:28-41 | a pending movement older than 20 approved ones is not counted |
| Supervisor.ApprovedAdjustment | src/modules/pos/SupervisorDashboard.tsx:56-61 | approval sets status and approver fields; the request itself is kept |
| Supervisor.ApprovedMovement | src/modules/pos/SupervisorDashboard.tsx:76-81 | approval sets status and approver fields; the movement itself is kept |
| Supervisor.ApproveAdjustment | src/modules/pos/SupervisorDashboard.tsx:51-69 | nothing without user or record; otherwise the record is approved and the product's stock moves once |
| Supervisor.ApproveMovement | src/modules/pos/SupervisorDashboard.tsx:71-90 | nothing without user or record; otherwise the record is approved and the stored shift's expected cash moves by the movement |
| Payment.Change | src/modules/pos/components/PaymentModal.tsx:38-40 | the change shown is never negative, zero unless cash, the excess tendered for cash |
| Payment.ShownChangeIsRecorded | src/modules/pos/components/PaymentModal.tsx:40 | the change shown equals the change the sale records |
| Payment.SelectMethod | src/modules/pos/components/PaymentModal.tsx:42-56 | offline, a method needing the network changes nothing; otherwise it is selected and details are shown |
| Payment.OfflineGate | src/modules/pos/components/PaymentModal.tsx:43-56 | offline, card and mobile are refused, cash and transfer go to details |
| Payment.QuickCashCandidates | src/modules/pos/components/PaymentModal.tsx:85-89 | the total, then the least multiples of 100, 500 and 1000 at or above it (each a whole number of units, less than one unit above the total) |
| Payment.CeilIsWhole | src/modules/pos/components/PaymentModal.tsx:86-88 | rounding up to a unit gives a whole number of units |
| Payment.QuickCashAmounts | src/modules/pos/components/PaymentModal.tsx:85-90 | 1 to 4 distinct buttons starting with the total, each at least the total, holding every candidate, in the order of their first occurrence |
| Payment.CeilOfWhole | src/modules/pos/components/PaymentModal.tsx:87-89 | rounding a whole number of units up to that unit keeps it |
| Payment.RoundTotalHasOneButton | src/modules/pos/components/PaymentModal.tsx:85-90 | a total that is a multiple of 1000 gets one button |
| Payment.EnabledCashSubmitBalances | src/modules/pos/components/PaymentModal.tsx:201 | a cash submit the button allows records amount plus change equal to the tender |
| Payment.Submit | src/modules/pos/components/PaymentModal.tsx:58-83 | nothing, and no write, without a cart or user; otherwise the sale completes with its whole effect (cart row completed, one outbox item, cash accrued on the shift and its row), and the receipt step follows only on success |
| Text.Lower | src/modules/pos/components/ProductSearch.tsx:16 | lower-casing keeps length and maps each character |
| Text.ContainsAt | src/modules/pos/components/ProductSearch.tsx:19-21 | `includes` holds exactly when the needle occurs at some position |
| Text.MissingCharNotContained | src/modules/pos/components/ProductSearch.tsx:19-21 | a needle with a character the haystack lacks is not contained |
| Text.EmptyAlwaysContained | src/modules/catalog/CatalogPage.tsx:15-17 | every string contains the empty string |
| Text.LowerOfLower | src/modules/pos/components/ProductSearch.tsx:16 | a string without capitals is its own lower-case form |
| Seqs.Dedup | src/modules/catalog/CatalogPage.tsx:12 | each element once, all of them, in order of first appearance |
| Seqs.DedupOfDistinct | src/modules/pos/components/PaymentModal.tsx:90 | a list without duplicates is kept as it is |
| Seqs.Filter | src/modules/pos/components/ProductSearch.tsx:17-22 | the kept elements are exactly those accepted, in their order |
| Seqs.FilterCounts | src/modules/pos/components/ProductSearch.tsx:17-22 | the filter keeps every copy of an accepted element and no copy of a refused one |
| Seqs.FilterAppendOne | src/modules/pos/components/ProductSearch.tsx:17-22 | filtering a list with one more element at the end appends that element exactly when it is accepted |
| Seqs.FilterKeepsAll | src/modules/pos/components/ProductSearch.tsx:17-22 | a filter keeps the whole length exactly when it accepts every element |
| Seqs.MultisetRemoveFirst | src/modules/shifts/shiftStore.ts:115 | removing one matching element from two permutations leaves permutations |
| Seqs.FilterAll | src/modules/catalog/CatalogPage.tsx:14-20 | a filter accepting everything keeps the whole list |
| ProductSearch.FilteredProducts | src/modules/pos/components/ProductSearch.tsx:14-23 | blank search gives nothing; otherwise exactly the matching products, in table order |
| ProductSearch.SingleProductResult | src/modules/pos/components/ProductSearch.tsx:14-23 | a one-product table yields the product exactly when it matches |
| ProductSearch.RiceMatches | src/modules/pos/components/ProductSearch.tsx:16-21 | "rice" matches a product named "Rice" |
| ProductSearch.RiceMissesSpaced | src/modules/pos/components/ProductSearch.tsx:16-21 | " rice" does not |
| ProductSearch.SearchIsNotTrimmed | src/modules/pos/components/ProductSearch.tsx:15-16 | a leading space stops a match the bare word makes |
| ProductSearch.SelectProduct | src/modules/pos/components/ProductSearch.tsx:47-51 | picking adds one of the product to the active cart, writes that cart over its row (creating an empty row first when there was no active cart), keeps memory and table in step, and clears the search |
| Catalog.CategoryIds | src/modules/catalog/CatalogPage.tsx:12 | one category id per product, in order |
| Catalog.Categories | src/modules/catalog/CatalogPage.tsx:12 | the chips are the distinct category ids in first-appearance order |
| Catalog.CatalogProducts | src/modules/catalog/CatalogPage.tsx:14-20 | shown exactly when both the search and the category match, in table order |
| Catalog.NoFilterShowsAll | src/modules/catalog/CatalogPage.tsx:15-18 | no search and no category show every product |
| Catalog.SingleProductShown | src/modules/catalog/CatalogPage.tsx:14-20 | a one-product table shows it exactly when it passes both filters |
| Catalog.CatalogMissesBarcode | src/modules/catalog/CatalogPage.tsx:15-17 | the catalogue search does not look at barcodes |
| Catalog.SearchFindsBarcode | src/modules/pos/components/ProductSearch.tsx:21 | the sale-screen search does |
| Catalog.BarcodeOnlyOnSaleScreen | src/modules/catalog/CatalogPage.tsx:14-20 | a barcode finds a product on the sale screen but not in the catalogue |
| Catalog.CategoryFilterKeepsCategory | src/modules/catalog/CatalogPage.tsx:18 | a chosen category shows only its products |

## Left out

- Floating point: money is an exact `real`, so IEEE rounding of JavaScript numbers is not modelled.
- `formatCurrency` (src/shared/utils/currency.ts:15-17): locale formatting only.
- Case mapping covers ASCII letters only. Unicode lower-casing is not modelled.
- React rendering, form wiring, modal steps, the live-query loading state and the QR receipt image are not modelled.
  - A live query that has not loaded yet counts as an empty list in the source.
- The `persist` middleware, the Dexie engine and its schema strings, the service worker, the static server, the build config and product seeding are not part of this model.
- `startSyncMonitor` (src/services/syncService.ts:46-61), the stub's delay and logging, and the interleaving of `await`s are not modelled. Each operation runs to completion.
- Clock readings, fresh ids and the login token are parameters.
- Sync.ProcessSyncQueue: one `now` stands for every clock reading of a pass.
- Every other operation also reads the clock once. One `now` stands for all of its `Date.now()` calls, which run within the same call in the source. The operations that read it more than once are listed below.
- CartEngine.CartStore.AddToCart: one `now` is the new cart's `createdAt` and `updatedAt` and the repriced cart's `updatedAt` (src/modules/pos/cartStore.ts:47-48, :96).
- CartEngine.CartStore.CompleteTransaction: one `now` is the audit `timestamp`, the transaction's `offlineCreatedAt` and the outbox item's `createdAt` (src/modules/pos/cartStore.ts:170, :178, :188).
- ShiftLedger.ShiftStore.OpenShift: one `now` is the shift's `openedAt` and the outbox item's `createdAt` (src/modules/shifts/shiftStore.ts:49, :65).
- ShiftLedger.ShiftStore.CloseShift: one `now` is `closedAt` and the outbox item's `createdAt` (src/modules/shifts/shiftStore.ts:83, :95).
- ShiftLedger.ShiftStore.GenerateXReport: one `now` is the window's upper bound and `generatedAt` (src/modules/shifts/shiftStore.ts:108, :113).
- ShiftLedger.ShiftStore.GenerateZReport: one `now` is the window's upper bound, `generatedAt`, `approvedAt`, and the close's `closedAt` and outbox `createdAt` (src/modules/shifts/shiftStore.ts:140-148, :83, :95).
- Adjustments.SubmitAdjustment: one `now` is the record's `createdAt` and `approvedAt` and the outbox item's `createdAt`.
- Movements.SubmitMovement: one `now` is the record's `createdAt` and `approvedAt` and the outbox item's `createdAt`.
- CartEngine.CartStore.InitCart: the source picks the first active cart in index order. The model picks some active row and does not say which.
- ShiftLedger.ShiftStore.LoadCurrentShift: the source finds the first matching shift in index order. The model promises some matching shift.
- Supervisor.RecentMovements: takes the movements table in creation-time order as its input rather than sorting it.
- ShiftReports.Window, Supervisor.TodayTransactions: the source's `where('offlineCreatedAt')` range queries return rows in `offlineCreatedAt` order. The model keeps the rows in insertion order. The report and dashboard sums and counts do not depend on that order.
- Adjustments.ProductNameOf: reads the products table. The form reads a list it loaded when it opened; if that list has not loaded yet, the source records "Unknown".
- Identity.AuthStore.Login: looking up names that JavaScript objects inherit (such as "constructor") is not modelled. Such a name is treated as unknown.
- CartEngine.CartStore.CompleteTransaction: a fresh transaction id is a precondition. The source's `add` would reject a duplicate key.
- ShiftLedger.ShiftStore.OpenShift: a fresh shift id is a precondition (`id !in db.shifts`). The source's `add` would reject a duplicate key.
- Adjustments.SubmitAdjustment: a fresh adjustment id is a precondition. The source's `add` would reject a duplicate key.
- Movements.SubmitMovement: a fresh movement id is a precondition. The source's `add` would reject a duplicate key.
- Movements.SubmitMovementInStep: the same fresh movement id precondition as `SubmitMovement`.
- CartEngine.CartStore.AddToCart: without an active cart, a fresh cart id is a precondition. The source's `add` would reject a duplicate key.
- ProductSearch.SelectProduct: the same fresh cart id precondition as `AddToCart`.
- Supervisor.ApproveAdjustment: the record being pending is a precondition. Only pending records are offered for approval, so the side effect runs at most once. The handler itself does not check.
- Supervisor.ApproveMovement: the same pending precondition as `ApproveAdjustment`.
- Payment.CeilTo has no contract of its own. `Payment.CeilIsWhole` states that it gives a whole number of units, and `Payment.QuickCashCandidates` states its bounds for the literal units the screen uses.

Where the code does less than a plain reading of its purpose suggests, the model follows the code:

- `addToCart` accepts a quantity of 0 or less.
- `completeTransaction` checks neither the line count nor the tender.
  - It records the grand total, not the amount tendered.
  - It accrues a cash sale only when a shift is current, and skips it silently otherwise.
- `openShift` does not check for a shift already open.
- A merged line keeps its old unit price and tax rate. The cart totals use that unit price.
- The returned cent-rounded totals reconcile with the grand total only to within 0.02.
- Report windows include the opening time and exclude `now`.
- The dashboard counts sales strictly after midnight.
- The dashboard's pending-movement count looks only at the latest 20 movements of all locations.
- The approve handlers queue nothing for sync.
- An empty category string matches every product in the catalogue.
- `closeShift` writes the in-memory shift over its row. A Z-report stored on the row is kept.

## Findings

| source | as written | input that shows it | evidently intended | confidence | as-written member | corrected member |
|---|---|---|---|---|---|---|
| src/modules/pos/components/CashMovementModal.tsx:78-83 with src/modules/shifts/shiftStore.ts:165-183 | an approved movement writes the shift row's expected cash from the in-memory shift but leaves the in-memory shift as it was; the next cash sale (or close) writes the in-memory figure back over the row | shift expecting 1000; a drop of 300 is approved on submit (row 700); a cash sale of 500 follows, and the row expects 1500 | the drop survives: row and memory both expect 1200 | not executed | Movements.SubmitMovement, Movements.DropLostOnNextCashSale | Movements.SubmitMovementInStep, Movements.DropKeptInStep |

=== FILE: adjustments.dfy ===
/** Stock adjustments: the request form's submit handler.  A submitter who may
    grant approvals approves their own request, and only an approved request
    moves stock. */
module Adjustments {
  import opened Records
  import opened Storage
  import opened Identity

  const UnknownProduct: string := "Unknown"

  /** The product name the form records: the catalogue's, else (no such
      product, or an empty name) "Unknown".  Never empty. */
  function ProductNameOf(products: map<string, Product>, productId: string): (name: string)
    ensures name != ""
    ensures productId in products && products[productId].name != "" ==> name == products[productId].name
    ensures productId !in products || products[productId].name == "" ==> name == UnknownProduct
  {
    if productId in products && products[productId].name != "" then products[productId].name else UnknownProduct
  }

  /** The adjustment record a submit writes. */
  function AdjustmentRecord(id: string, productId: string, productName: string, quantityChange: int,
                            reason: AdjustmentReason, notes: string, u: User, now: int): (a: InventoryAdjustment)
    ensures a.status == Approved <==> Permits(Some(u), ApprovalGrant)
    ensures a.status == PendingApproval <==> !Permits(Some(u), ApprovalGrant)
    ensures a.status == Approved ==>
      a.approvedBy == Some(u.id) && a.approvedByName == Some(u.name) && a.approvedAt == Some(now)
    ensures a.status != Approved ==> a.approvedBy == None && a.approvedByName == None && a.approvedAt == None
    ensures a.id == id && a.productId == productId && a.quantityChange == quantityChange
    ensures a.createdBy == u.id && a.locationId == u.locationId && a.syncStatus == SyncPending
  {
    var grants := Permits(Some(u), ApprovalGrant);
    InventoryAdjustment(id, productId, productName, quantityChange, reason, notes, u.id, u.name, now,
      if grants then Some(u.id) else None,
      if grants then Some(u.name) else None,
      if grants then Some(now) else None,
      if grants then Approved else PendingApproval,
      u.locationId, SyncPending)
  }

  /** The products table after `quantityChange` is applied to the stock of `productId`, if it exists. */
  function WithStockChange(products: map<string, Product>, productId: string, quantityChange: int)
    : (r: map<string, Product>)
    ensures r.Keys == products.Keys
    ensures productId in products ==>
      r[productId] == products[productId].(stockQuantity := products[productId].stockQuantity + quantityChange)
    ensures forall k :: k in products && k != productId ==> r[k] == products[k]
  {
    if productId in products
    then products[productId := products[productId].(stockQuantity := products[productId].stockQuantity + quantityChange)]
    else products
  }

  /** The form's submit: record the request, queue it for sync, and move
      stock when it is approved on the spot.  The form only submits with a
      product chosen and notes given; without a user nothing is written. */
  method SubmitAdjustment(db: Db, auth: AuthStore, productId: string, quantityChange: int,
                          reason: AdjustmentReason, notes: string, id: string, now: int)
    requires db.Valid() && id !in db.adjustments
    requires productId != "" && notes != ""
    modifies db`adjustments, db`syncQueue, db`nextSyncId, db`products
    ensures db.Valid()
    ensures auth.user.None? ==> unchanged(db)
    ensures auth.user.Some? ==>
      var a := AdjustmentRecord(id, productId, ProductNameOf(old(db.products), productId), quantityChange,
        reason, notes, auth.user.value, now);
      && db.adjustments == old(db.adjustments)[id := a]
      && db.syncQueue == old(db.syncQueue)
           + [SyncItem(old(db.nextSyncId), AdjustmentEntity, id, AdjustmentPayload(a), 0, now, None)]
      && db.products == (if a.status == Approved then WithStockChange(old(db.products), productId, quantityChange)
                         else old(db.products))
    ensures auth.user.Some? && !auth.HasPermission(ApprovalGrant) ==> db.products == old(db.products)
  {
    if auth.user.None? {
      return;
    }
    var u := auth.user.value;
    var a := AdjustmentRecord(id, productId, ProductNameOf(db.products, productId), quantityChange,
      reason, notes, u, now);
    db.adjustments := db.adjustments[id := a];
    var _ := db.AddSyncItem(AdjustmentEntity, id, AdjustmentPayload(a), now);
    if a.status == Approved {
      db.products := WithStockChange(db.products, productId, quantityChange);
    }
  }
}

=== FILE: cart_lines.dfy ===
/** The line-item arithmetic of the cart engine: a fresh cart, adding a
    product (merge or append), changing a line's quantity, and re-pricing a
    cart from its lines. */
module CartLines {
  import opened Records
  import opened Currency

  /** A fresh active cart with no lines and every total zero. */
  function NewCart(id: string, now: int): (c: Cart)
    ensures c.id == id && c.status == Active && c.lineItems == []
    ensures c.subtotal == c.totalTax == c.totalDiscount == c.grandTotal == c.roundingAdjustment == 0.0
  {
    Cart(id, Active, [], 0.0, 0.0, 0.0, 0.0, 0.0, now, now)
  }

  /** The line invariant of the data model: lineTotal = unitPrice x quantity and
      lineTax = lineTotal x taxRate. */
  predicate Consistent(item: LineItem) {
    item.lineTotal == item.unitPrice * item.quantity as real && item.lineTax == item.lineTotal * item.taxRate
  }

  predicate HasProduct(lines: seq<LineItem>, productId: string) {
    exists i :: 0 <= i < |lines| && lines[i].productId == productId
  }

  predicate HasLine(lines: seq<LineItem>, lineId: string) {
    exists i :: 0 <= i < |lines| && lines[i].id == lineId
  }

  /** At most one line per product. */
  predicate UniqueProducts(lines: seq<LineItem>) {
    forall i, j :: 0 <= i < j < |lines| ==> lines[i].productId != lines[j].productId
  }

  function ProductIds(lines: seq<LineItem>): set<string> {
    set i | 0 <= i < |lines| :: lines[i].productId
  }

  /** A new line for `product`: priced at the product's current price, no discount. */
  function NewLine(product: Product, quantity: int, lineId: string): (item: LineItem)
    ensures Consistent(item)
    ensures item.productId == product.id && item.unitPrice == product.price && item.discount == 0.0
  {
    var lineTotal := product.price * quantity as real;
    LineItem(lineId, product.id, product.name, quantity, product.price, product.taxRate, 0.0,
      lineTotal, lineTotal * product.taxRate)
  }

  /** An existing line after `quantity` more of `product` is added: the
      quantity grows and the line total is recomputed from the product's
      CURRENT price and tax rate, while the stored unit price and tax rate stay. */
  function Merged(item: LineItem, product: Product, quantity: int): (r: LineItem)
    ensures r.id == item.id && r.productId == item.productId && r.productName == item.productName
    ensures r.unitPrice == item.unitPrice && r.taxRate == item.taxRate && r.discount == item.discount
    ensures r.quantity == item.quantity + quantity
    ensures r.lineTotal == product.price * r.quantity as real && r.lineTax == r.lineTotal * product.taxRate
  {
    var newQty := item.quantity + quantity;
    var lineTotal := product.price * newQty as real;
    item.(quantity := newQty, lineTotal := lineTotal, lineTax := lineTotal * product.taxRate)
  }

  /** addToCart's new line list.  A product the cart already holds keeps the
      line count, grows that line's quantity by `quantity` (its unit price
      unchanged) and leaves every other line as it was; a product the cart does
      not hold appends one new line at the end. */
  function AddLines(lines: seq<LineItem>, product: Product, quantity: int, lineId: string): (r: seq<LineItem>)
    ensures HasProduct(lines, product.id) ==>
      |r| == |lines| &&
      forall i {:trigger r[i]} :: 0 <= i < |lines| ==>
        if lines[i].productId == product.id then
          r[i].quantity == lines[i].quantity + quantity && r[i].unitPrice == lines[i].unitPrice
          && r[i].id == lines[i].id && r[i].productId == product.id
          && r[i].lineTotal == product.price * r[i].quantity as real
        else r[i] == lines[i]
    ensures !HasProduct(lines, product.id) ==>
      |r| == |lines| + 1 && (forall i {:trigger r[i]} :: 0 <= i < |lines| ==> r[i] == lines[i]) &&
      r[|lines|].id == lineId && r[|lines|].productId == product.id && r[|lines|].quantity == quantity &&
      r[|lines|].unitPrice == product.price && r[|lines|].discount == 0.0 &&
      r[|lines|].lineTotal == product.price * quantity as real &&
      r[|lines|].lineTax == r[|lines|].lineTotal * product.taxRate
  {
    if HasProduct(lines, product.id) then
      seq(|lines|, i requires 0 <= i < |lines| =>
        if lines[i].productId == product.id then Merged(lines[i], product, quantity) else lines[i])
    else
      lines + [NewLine(product, quantity, lineId)]
  }

  /** A line set to `quantity`, re-priced from its own stored unit price and tax rate. */
  function Requantified(item: LineItem, quantity: int): (r: LineItem)
    ensures Consistent(r)
    ensures r.id == item.id && r.productId == item.productId && r.unitPrice == item.unitPrice
    ensures r.quantity == quantity
  {
    var lineTotal := item.unitPrice * quantity as real;
    item.(quantity := quantity, lineTotal := lineTotal, lineTax := lineTotal * item.taxRate)
  }

  /** updateQuantity's new line list: the line with `lineId` is dropped when
      `quantity <= 0` and re-quantified otherwise; the others are kept in order. */
  function UpdateLines(lines: seq<LineItem>, lineId: string, quantity: int): (r: seq<LineItem>)
    ensures |r| <= |lines|
    ensures ProductIds(r) <= ProductIds(lines)
    ensures quantity <= 0 ==> !HasLine(r, lineId)
    ensures quantity > 0 ==> |r| == |lines|
  {
    if |lines| == 0 then []
    else
      var head := if lines[0].id != lineId then [lines[0]]
        else if quantity <= 0 then []
        else [Requantified(lines[0], quantity)];
      var rest := UpdateLines(lines[1..], lineId, quantity);
      assert ProductIds(head + rest) <= ProductIds(lines) by {
        forall k | 0 <= k < |head + rest|
          ensures (head + rest)[k].productId in ProductIds(lines)
        {
          if k < |head| {
            assert lines[0].productId in ProductIds(lines);
          } else {
            var p := rest[k - |head|].productId;
            assert p in ProductIds(rest);
            assert p in ProductIds(lines[1..]);
            var j :| 0 <= j < |lines[1..]| && lines[1..][j].productId == p;
            assert lines[j + 1].productId == p;
          }
        }
      }
      head + rest
  }

  /** The cart after its line list is replaced and its totals recomputed. */
  function Repriced(cart: Cart, lines: seq<LineItem>, now: int): (c: Cart)
    ensures c.id == cart.id && c.status == cart.status && c.createdAt == cart.createdAt
    ensures c.lineItems == lines && c.updatedAt == now
    ensures IsMultipleOf(c.grandTotal, 5)
    ensures BeforeRounding(lines) - 2.5 < c.grandTotal <= BeforeRounding(lines) + 2.5
  {
    var t := Totals(lines);
    cart.(lineItems := lines, subtotal := t.subtotal, totalTax := t.totalTax,
      totalDiscount := t.totalDiscount, grandTotal := t.grandTotal,
      roundingAdjustment := t.roundingAdjustment, updatedAt := now)
  }

  // ----- adding -----

  /** After adding, the list holds a line for the product. */
  lemma AddHoldsProduct(lines: seq<LineItem>, product: Product, quantity: int, lineId: string)
    ensures HasProduct(AddLines(lines, product, quantity, lineId), product.id)
  {
    var r := AddLines(lines, product, quantity, lineId);
    if HasProduct(lines, product.id) {
      var k :| 0 <= k < |lines| && lines[k].productId == product.id;
      assert r[k].productId == product.id;
    } else {
      assert r[|lines|].productId == product.id;
    }
  }

  /** Adding keeps at most one line per product. */
  lemma AddKeepsProductsUnique(lines: seq<LineItem>, product: Product, quantity: int, lineId: string)
    requires UniqueProducts(lines)
    ensures UniqueProducts(AddLines(lines, product, quantity, lineId))
    ensures ProductIds(AddLines(lines, product, quantity, lineId)) == ProductIds(lines) + {product.id}
  {
    var r := AddLines(lines, product, quantity, lineId);
    if HasProduct(lines, product.id) {
      assert forall i :: 0 <= i < |lines| ==> r[i].productId == lines[i].productId;
      var k :| 0 <= k < |lines| && lines[k].productId == product.id;
      assert product.id in ProductIds(lines);
      assert ProductIds(r) == ProductIds(lines);
    } else {
      assert ProductIds(r) == ProductIds(lines) + {product.id} by {
        forall p | p in ProductIds(lines) ensures p in ProductIds(r) {
          var j :| 0 <= j < |lines| && lines[j].productId == p;
          assert r[j].productId == p;
        }
        assert r[|lines|].productId == product.id;
      }
    }
  }

  /** Adding the same product twice, 2 and then 3, gives one line of quantity 5. */
  lemma AddSameProductTwice(product: Product, first: string, second: string)
    ensures var r := AddLines(AddLines([], product, 2, first), product, 3, second);
      |r| == 1 && r[0].quantity == 5 && r[0].id == first
  {
    var once := AddLines([], product, 2, first);
    assert once[0].productId == product.id;
    assert HasProduct(once, product.id);
  }

  /** A merged line still satisfies the line invariant when the product's price
      and tax rate have not changed since the line was created. */
  lemma MergeKeepsConsistentAtSamePrice(item: LineItem, product: Product, quantity: int)
    requires product.price == item.unitPrice && product.taxRate == item.taxRate
    ensures Consistent(Merged(item, product, quantity))
  {
  }

  /** After a price change a merged line breaks the line invariant: a line of one
      unit at 300, merged with one more unit of the product now priced at 350,
      has lineTotal 700 while unitPrice x quantity is 600, and the cart's
      subtotal is computed from the stale unit price. */
  lemma MergeAfterPriceChangeIsInconsistent()
    ensures var item := LineItem("l", "p", "n", 1, 300.0, 0.0, 0.0, 300.0, 0.0);
      var product := Product("p", "s", "n", "", 350.0, 0.0, "c", None, true, 5, 0);
      var r := AddLines([item], product, 1, "m");
      !Consistent(r[0]) && r[0].lineTotal == 700.0 && SumSubtotal(r) == 600.0
  {
    var item := LineItem("l", "p", "n", 1, 300.0, 0.0, 0.0, 300.0, 0.0);
    var product := Product("p", "s", "n", "", 350.0, 0.0, "c", None, true, 5, 0);
    assert HasProduct([item], product.id);
    var r := AddLines([item], product, 1, "m");
    assert r[..0] == [];
  }

  // ----- changing a quantity -----

  lemma {:induction false} UpdateUnknownLine(lines: seq<LineItem>, lineId: string, quantity: int)
    requires !HasLine(lines, lineId)
    ensures UpdateLines(lines, lineId, quantity) == lines
  {
    if |lines| > 0 {
      assert lines[0].id != lineId;
      assert !HasLine(lines[1..], lineId) by {
        forall j | 0 <= j < |lines[1..]| ensures lines[1..][j].id != lineId {
          assert lines[1..][j] == lines[j + 1];
        }
      }
      UpdateUnknownLine(lines[1..], lineId, quantity);
      assert [lines[0]] + lines[1..] == lines;
    }
  }

  lemma {:induction false} UpdateLinesAppend(a: seq<LineItem>, b: seq<LineItem>, lineId: string, quantity: int)
    ensures UpdateLines(a + b, lineId, quantity) == UpdateLines(a, lineId, quantity) + UpdateLines(b, lineId, quantity)
  {
    if |a| > 0 {
      assert (a + b)[1..] == a[1..] + b;
      UpdateLinesAppend(a[1..], b, lineId, quantity);
    } else {
      assert a + b == b;
    }
  }

  /** On a line id that occurs once, a quantity of 0 or less removes exactly that
      line and a positive quantity re-quantifies exactly that line; the lines
      before and after keep their order and values. */
  lemma UpdateOneLine(a: seq<LineItem>, x: LineItem, b: seq<LineItem>, quantity: int)
    requires !HasLine(a, x.id) && !HasLine(b, x.id)
    ensures UpdateLines(a + [x] + b, x.id, quantity)
         == if quantity <= 0 then a + b else a + [Requantified(x, quantity)] + b
  {
    var id := x.id;
    var mid := if quantity <= 0 then [] else [Requantified(x, quantity)];
    UpdateSingleLine(x, quantity);
    UpdateUnknownLine(a, id, quantity);
    UpdateUnknownLine(b, id, quantity);
    UpdateLinesAppend(a, [x], id, quantity);
    assert UpdateLines(a + [x], id, quantity) == a + mid;
    UpdateLinesAppend(a + [x], b, id, quantity);
    assert UpdateLines(a + [x] + b, id, quantity) == a + mid + b;
  }

  lemma UpdateSingleLine(x: LineItem, quantity: int)
    ensures UpdateLines([x], x.id, quantity) == if quantity <= 0 then [] else [Requantified(x, quantity)]
  {
    assert [x][1..] == [];
  }

  /** Changing quantities keeps at most one line per product. */
  lemma {:induction false} UpdateKeepsProductsUnique(lines: seq<LineItem>, lineId: string, quantity: int)
    requires UniqueProducts(lines)
    ensures UniqueProducts(UpdateLines(lines, lineId, quantity))
  {
    if |lines| > 0 {
      var rest := UpdateLines(lines[1..], lineId, quantity);
      UpdateKeepsProductsUnique(lines[1..], lineId, quantity);
      assert lines[0].productId !in ProductIds(lines[1..]) by {
        forall j | 0 <= j < |lines[1..]| ensures lines[1..][j].productId != lines[0].productId {
          assert lines[1..][j] == lines[j + 1];
        }
      }
      var r := UpdateLines(lines, lineId, quantity);
      forall i, j | 0 <= i < j < |r| ensures r[i].productId != r[j].productId {
        if r != rest {
          assert r[0].productId == lines[0].productId;
          if i == 0 {
            assert r[j] == rest[j - 1];
            assert r[j].productId in ProductIds(rest);
          } else {
            assert r[i] == rest[i - 1] && r[j] == rest[j - 1];
          }
        }
      }
    }
  }

  /** The cart's line-item count, at most the count before a quantity change. */
  lemma UpdateNeverAddsLines(lines: seq<LineItem>, lineId: string, quantity: int)
    ensures |UpdateLines(lines, lineId, quantity)| <= |lines|
    ensures quantity <= 0 && HasLine(lines, lineId) ==> |UpdateLines(lines, lineId, quantity)| < |lines|
  {
    if quantity <= 0 && HasLine(lines, lineId) {
      var k :| 0 <= k < |lines| && lines[k].id == lineId;
      UpdateDropsMatch(lines, lineId, quantity, k);
    }
  }

  lemma {:induction false} UpdateDropsMatch(lines: seq<LineItem>, lineId: string, quantity: int, k: nat)
    requires quantity <= 0 && k < |lines| && lines[k].id == lineId
    ensures |UpdateLines(lines, lineId, quantity)| < |lines|
  {
    if k > 0 {
      UpdateDropsMatch(lines[1..], lineId, quantity, k - 1);
    }
  }
}

=== FILE: cart_store.dfy ===
/** The cart store: the one cart being rung up, mirrored into the carts table,
    and the sale that completes it. */
module CartEngine {
  import opened Records
  import opened Currency
  import opened CartLines
  import opened Storage
  import opened Identity
  import opened ShiftLedger

  /** Change handed back: only cash tenders get change, never negative. */
  function ChangeDue(paid: PaymentMethod, tendered: real, grandTotal: real): (c: real)
    ensures c >= 0.0
    ensures paid != Cash ==> c == 0.0
    ensures paid == Cash && tendered >= grandTotal ==> c == tendered - grandTotal
    ensures paid == Cash && tendered < grandTotal ==> c == 0.0
  {
    if paid == Cash && tendered > grandTotal then tendered - grandTotal else 0.0
  }

  /** The transaction `completeTransaction` records for `cart`: the amount
      recorded is the cart's grand total, not the amount tendered. */
  function SaleTransaction(cart: Cart, u: User, paid: PaymentMethod, tendered: real,
                           referenceNumber: Option<string>, id: string, now: int): (t: Transaction)
    ensures t.id == id && t.cartId == cart.id && t.paymentMethod == paid
    ensures t.paymentAmount == cart.grandTotal
    ensures t.changeGiven == ChangeDue(paid, tendered, cart.grandTotal)
    ensures t.status == TxCompleted && t.syncStatus == SyncPending && t.syncedAt == None
    ensures t.offlineCreatedAt == now
    ensures t.auditTrail == [AuditEntry("SALE_COMPLETED", u.id, now, cart.grandTotal, paid, |cart.lineItems|)]
  {
    Transaction(id, cart.id, paid, cart.grandTotal, ChangeDue(paid, tendered, cart.grandTotal),
      referenceNumber, TxCompleted, SyncPending,
      [AuditEntry("SALE_COMPLETED", u.id, now, cart.grandTotal, paid, |cart.lineItems|)], now, None)
  }

  /** A cash sale tendered in full balances the drawer: what is recorded plus
      the change is what was handed over. */
  lemma CashSaleBalances(cart: Cart, u: User, tendered: real, ref: Option<string>, id: string, now: int)
    requires tendered >= cart.grandTotal
    ensures var t := SaleTransaction(cart, u, Cash, tendered, ref, id, now);
      t.paymentAmount + t.changeGiven == tendered
  {
  }

  /** The store itself does not check the tender: an underpaid cash sale is
      recorded at the full grand total with no change. */
  lemma UnderpaidCashRecordedInFull(cart: Cart, u: User, tendered: real, ref: Option<string>, id: string, now: int)
    requires tendered < cart.grandTotal
    ensures var t := SaleTransaction(cart, u, Cash, tendered, ref, id, now);
      t.paymentAmount == cart.grandTotal > tendered && t.changeGiven == 0.0
  {
  }

  /** The carts table with the status of row `id` set, if the row is there. */
  function WithCartStatus(carts: map<string, Cart>, id: string, status: CartStatus): (r: map<string, Cart>)
    ensures r.Keys == carts.Keys
    ensures id in carts ==> r[id] == carts[id].(status := status)
    ensures forall k :: k in carts && k != id ==> r[k] == carts[k]
  {
    if id in carts then carts[id := carts[id].(status := status)] else carts
  }

  /** The cart with new lines and its totals recalculated over them. */
  method RepriceCart(cart: Cart, lines: seq<LineItem>, now: int) returns (c: Cart)
    ensures c == Repriced(cart, lines, now)
  {
    var t := CalculateCartTotals(lines);
    c := cart.(lineItems := lines, subtotal := t.subtotal, totalTax := t.totalTax,
      totalDiscount := t.totalDiscount, grandTotal := t.grandTotal,
      roundingAdjustment := t.roundingAdjustment, updatedAt := now);
  }

  /** Writing a cart over its own key keeps every row under its own id. */
  lemma CartWriteKeyed(carts: map<string, Cart>, c: Cart, written: map<string, Cart>)
    requires forall k :: k in carts ==> carts[k].id == k
    requires written == carts[c.id := c]
    ensures forall k :: k in written ==> written[k].id == k
  {
  }

  class CartStore {
    var activeCart: Option<Cart>
    var isLoading: bool
    const db: Db
    const auth: AuthStore
    const shifts: ShiftStore

    constructor (db: Db, auth: AuthStore, shifts: ShiftStore)
      requires shifts.db == db && shifts.auth == auth
      ensures this.db == db && this.auth == auth && this.shifts == shifts
      ensures activeCart == None && !isLoading
      ensures Wired() && Mirrors()
    {
      this.db, this.auth, this.shifts := db, auth, shifts;
      activeCart, isLoading := None, false;
    }

    /** The shift store works on the same tables and the same session. */
    predicate Wired()
    {
      shifts.db == db && shifts.auth == auth
    }

    /** The active cart is an active row of the carts table, exactly as held in memory. */
    ghost predicate Mirrors()
      reads this, db
    {
      activeCart.Some? ==>
        && activeCart.value.id in db.carts
        && db.carts[activeCart.value.id] == activeCart.value
        && activeCart.value.status == Active
    }

    /** initCart: some active cart row becomes the active cart; with none, nothing changes. */
    method InitCart()
      modifies this`activeCart
      ensures (exists k :: k in db.carts && db.carts[k].status == Active) ==>
        activeCart.Some? && activeCart.value in db.carts.Values && activeCart.value.status == Active
      ensures !(exists k :: k in db.carts && db.carts[k].status == Active) ==> activeCart == old(activeCart)
      ensures db.Valid() ==> Mirrors() || activeCart == old(activeCart)
    {
      if k :| k in db.carts && db.carts[k].status == Active {
        activeCart := Some(db.carts[k]);
      }
    }

    /** addToCart: without an active cart a fresh empty one is stored first;
        then the product is merged into its line or appended as a new line,
        the totals are recomputed and the whole cart is written over its row. */
    method AddToCart(product: Product, quantity: int, cartId: string, lineId: string, now: int)
      requires db.Valid()
      requires activeCart.None? ==> cartId !in db.carts
      modifies this`activeCart, db`carts
      ensures db.Valid()
      ensures var base := if old(activeCart).Some? then old(activeCart).value else NewCart(cartId, now);
        var c := Repriced(base, AddLines(base.lineItems, product, quantity, lineId), now);
        && activeCart == Some(c)
        && db.carts == UpdateRow(if old(activeCart).Some? then old(db.carts) else old(db.carts)[cartId := base],
             base.id, c)
      ensures old(activeCart).Some? && UniqueProducts(old(activeCart).value.lineItems) ==>
        UniqueProducts(activeCart.value.lineItems)
      ensures old(activeCart).Some? ==>
        |activeCart.value.lineItems| == |old(activeCart).value.lineItems|
          + (if HasProduct(old(activeCart).value.lineItems, product.id) then 0 else 1)
      ensures HasProduct(activeCart.value.lineItems, product.id)
      ensures old(activeCart).Some? ==> activeCart.value.status == old(activeCart).value.status
      ensures old(Mirrors()) ==> Mirrors()
    {
      var base: Cart;
      if activeCart.Some? {
        base := activeCart.value;
      } else {
        base := NewCart(cartId, now);
        CartWriteKeyed(db.carts, base, db.carts[cartId := base]);
        db.carts := db.carts[cartId := base];
      }
      var lines := AddLines(base.lineItems, product, quantity, lineId);
      AddHoldsProduct(base.lineItems, product, quantity, lineId);
      if UniqueProducts(base.lineItems) {
        AddKeepsProductsUnique(base.lineItems, product, quantity, lineId);
      }
      var c := RepriceCart(base, lines, now);
      CartWriteKeyed(db.carts, c, db.carts[c.id := c]);
      db.carts := UpdateRow(db.carts, base.id, c);
      activeCart := Some(c);
    }

    /** updateQuantity: the line with `lineId` gets the new quantity at its own
        unit price, or is dropped when the quantity is not positive; the totals
        are recomputed and written.  Nothing happens without an active cart. */
    method UpdateQuantity(lineId: string, quantity: int, now: int)
      requires db.Valid()
      modifies this`activeCart, db`carts
      ensures db.Valid()
      ensures old(activeCart).None? ==> unchanged(this) && unchanged(db)
      ensures old(activeCart).Some? ==>
        var c := Repriced(old(activeCart).value, UpdateLines(old(activeCart).value.lineItems, lineId, quantity), now);
        && activeCart == Some(c)
        && db.carts == UpdateRow(old(db.carts), c.id, c)
      ensures old(activeCart).Some? && quantity <= 0 ==> !HasLine(activeCart.value.lineItems, lineId)
      ensures old(activeCart).Some? && UniqueProducts(old(activeCart).value.lineItems) ==>
        UniqueProducts(activeCart.value.lineItems)
      ensures old(Mirrors()) ==> Mirrors()
    {
      if activeCart.None? {
        return;
      }
      var a := activeCart.value;
      var lines := UpdateLines(a.lineItems, lineId, quantity);
      if UniqueProducts(a.lineItems) {
        UpdateKeepsProductsUnique(a.lineItems, lineId, quantity);
      }
      var c := RepriceCart(a, lines, now);
      db.carts := UpdateRow(db.carts, a.id, c);
      activeCart := Some(c);
    }

    /** removeFromCart: an update to quantity zero, so the line is gone. */
    method RemoveFromCart(lineId: string, now: int)
      requires db.Valid()
      modifies this`activeCart, db`carts
      ensures db.Valid()
      ensures old(activeCart).None? ==> unchanged(this) && unchanged(db)
      ensures old(activeCart).Some? ==>
        var c := Repriced(old(activeCart).value, UpdateLines(old(activeCart).value.lineItems, lineId, 0), now);
        && activeCart == Some(c) && !HasLine(c.lineItems, lineId)
        && |c.lineItems| <= |old(activeCart).value.lineItems|
        && db.carts == UpdateRow(old(db.carts), c.id, c)
      ensures old(Mirrors()) ==> Mirrors()
    {
      UpdateQuantity(lineId, 0, now);
    }

    /** clearCart: the cart's row is marked cancelled and no cart is active. */
    method ClearCart()
      requires db.Valid()
      modifies this`activeCart, db`carts
      ensures db.Valid()
      ensures old(activeCart).None? ==> unchanged(this) && unchanged(db)
      ensures old(activeCart).Some? ==>
        activeCart == None && db.carts == WithCartStatus(old(db.carts), old(activeCart).value.id, Cancelled)
      ensures Mirrors()
    {
      if activeCart.None? {
        return;
      }
      db.carts := WithCartStatus(db.carts, activeCart.value.id, Cancelled);
      activeCart := None;
    }

    /** completeTransaction: the sale is recorded, the cart row marked completed,
        an outbox item queued with the transaction and the cart as it was, and
        for a cash sale the shift's counters are bumped; no cart is active after.
        Neither the line count nor an open shift is checked. */
    method CompleteTransaction(paid: PaymentMethod, tendered: real, referenceNumber: Option<string>,
                               txId: string, now: int)
      returns (r: Result<Transaction>)
      requires db.Valid() && Wired()
      requires !HasTransaction(db.transactions, txId)
      modifies this`activeCart, db`carts, db`transactions, db`syncQueue, db`nextSyncId
      modifies db`shifts, shifts`currentShift
      ensures db.Valid()
      ensures old(activeCart).None? || auth.user.None? ==>
        r == Err(NoActiveCartOrUser) && unchanged(this) && unchanged(db) && unchanged(shifts)
      ensures old(activeCart).Some? && auth.user.Some? ==>
        var cart := old(activeCart).value;
        var tx := SaleTransaction(cart, auth.user.value, paid, tendered, referenceNumber, txId, now);
        && r == Ok(tx) && activeCart == None
        && db.transactions == old(db.transactions) + [tx]
        && db.carts == WithCartStatus(old(db.carts), cart.id, Completed)
        && db.syncQueue == old(db.syncQueue)
             + [SyncItem(old(db.nextSyncId), TransactionEntity, txId, SalePayload(tx, cart), 0, now, None)]
      ensures old(activeCart).Some? && auth.user.Some? && paid == Cash ==>
        shifts.currentShift == (if old(shifts.currentShift).Some?
          then Some(WithSale(old(shifts.currentShift).value, old(activeCart).value.grandTotal))
          else None)
      ensures old(activeCart).Some? && auth.user.Some? && paid == Cash ==>
        db.shifts == (if old(shifts.currentShift).Some? && old(shifts.currentShift).value.id in old(db.shifts)
          then old(db.shifts)[old(shifts.currentShift).value.id :=
            SaleRow(old(db.shifts)[old(shifts.currentShift).value.id],
                    WithSale(old(shifts.currentShift).value, old(activeCart).value.grandTotal))]
          else old(db.shifts))
      ensures paid != Cash ==> shifts.currentShift == old(shifts.currentShift) && db.shifts == old(db.shifts)
      ensures old(shifts.InSync()) ==> shifts.InSync()
      ensures old(Mirrors()) ==> Mirrors()
    {
      if activeCart.None? || auth.user.None? {
        return Err(NoActiveCartOrUser);
      }
      var cart := activeCart.value;
      var tx := SaleTransaction(cart, auth.user.value, paid, tendered, referenceNumber, txId, now);
      db.transactions := db.transactions + [tx];
      db.carts := WithCartStatus(db.carts, cart.id, Completed);
      var _ := db.AddSyncItem(TransactionEntity, txId, SalePayload(tx, cart), now);
      if paid == Cash {
        shifts.UpdateSalesTotal(cart.grandTotal);
      }
      activeCart := None;
      r := Ok(tx);
    }
  }
}

=== FILE: catalog.dfy ===
/** The catalogue page: the category list and the search-and-category filter. */
module Catalog {
  import opened Records
  import opened Text
  import opened Seqs
  import ProductSearch

  function CategoryIds(products: seq<Product>): (r: seq<string>)
    ensures |r| == |products|
    ensures forall i :: 0 <= i < |r| ==> r[i] == products[i].categoryId
  {
    seq(|products|, i requires 0 <= i < |products| => products[i].categoryId)
  }

  /** The category chips: each category id once, in order of first appearance. */
  function Categories(products: seq<Product>): (r: seq<string>)
    ensures NoDuplicates(r)
    ensures forall i :: 0 <= i < |products| ==> products[i].categoryId in r
    ensures forall i :: 0 <= i < |r| ==> r[i] in CategoryIds(products)
    ensures forall i, j :: 0 <= i < j < |r| ==>
      FirstIndex(CategoryIds(products), r[i]) < FirstIndex(CategoryIds(products), r[j])
  {
    var ids := CategoryIds(products);
    assert forall i :: 0 <= i < |products| ==> products[i].categoryId == ids[i];
    Dedup(ids)
  }

  /** An empty search matches everything; otherwise the lower-cased name or
      SKU must contain the lower-cased search.  Barcodes are not searched. */
  predicate MatchesSearch(p: Product, search: string) {
    search == "" || Contains(Lower(p.name), Lower(search)) || Contains(Lower(p.sku), Lower(search))
  }

  /** No category chosen (or the empty one) matches everything; otherwise the ids must be equal. */
  predicate MatchesCategory(p: Product, category: Option<string>) {
    category.None? || category.value == "" || p.categoryId == category.value
  }

  /** The products shown: both conditions hold, in table order. */
  function CatalogProducts(products: seq<Product>, search: string, category: Option<string>): (r: seq<Product>)
    ensures forall p :: p in r <==> p in products && MatchesSearch(p, search) && MatchesCategory(p, category)
    ensures SubsequenceOf(r, products)
  {
    var r := Filter(products, p => MatchesSearch(p, search) && MatchesCategory(p, category));
    assert forall p :: p in products && MatchesSearch(p, search) && MatchesCategory(p, category) ==> p in r by {
      forall p | p in products && MatchesSearch(p, search) && MatchesCategory(p, category) ensures p in r {
        var i :| 0 <= i < |products| && products[i] == p;
      }
    }
    r
  }

  /** With no search and no category every product is shown, in order. */
  lemma NoFilterShowsAll(products: seq<Product>)
    ensures CatalogProducts(products, "", None) == products
  {
    FilterAll(products, p => MatchesSearch(p, "") && MatchesCategory(p, None));
  }

  /** On a one-product table the product is shown exactly when it passes both filters. */
  lemma SingleProductShown(p: Product, search: string, category: Option<string>)
    ensures CatalogProducts([p], search, category)
      == if MatchesSearch(p, search) && MatchesCategory(p, category) then [p] else []
  {
    var keep := (q: Product) => MatchesSearch(q, search) && MatchesCategory(q, category);
    assert [p][1..] == [];
    assert Filter([p], keep) == if keep(p) then [p] + Filter([], keep) else Filter([], keep);
  }

  function Labelled(): Product {
    Product("3", "PRD003", "Rice", "", 8500.0, 0.075, "groceries", Some("5901"), true, 30, 0)
  }

  lemma BarcodeLowered()
    ensures Lower("5901") == "5901" && !IsBlank("5901")
  {
    LowerOfLower("5901");
    assert !IsJsWhitespace("5901"[0]);
  }

  lemma CatalogMissesBarcode()
    ensures !MatchesSearch(Labelled(), "5901")
  {
    ProductSearch.RiceLowered();
    BarcodeLowered();
    MissingCharNotContained("rice", "5901", 0);
    MissingCharNotContained("prd003", "5901", 0);
  }

  lemma SearchFindsBarcode()
    ensures ProductSearch.Matches(Labelled(), Lower("5901"))
  {
    BarcodeLowered();
    assert "5901" <= Lower(Labelled().barcode.value);
  }

  /** A barcode finds a product on the sale screen but not in the catalogue. */
  lemma BarcodeOnlyOnSaleScreen()
    ensures CatalogProducts([Labelled()], "5901", None) == []
    ensures ProductSearch.FilteredProducts([Labelled()], "5901") == [Labelled()]
  {
    BarcodeLowered();
    CatalogMissesBarcode();
    SearchFindsBarcode();
    SingleProductShown(Labelled(), "5901", None);
    ProductSearch.SingleProductResult(Labelled(), "5901");
  }

  /** Choosing a category shows only that category's products (whatever the search). */
  lemma CategoryFilterKeepsCategory(products: seq<Product>, search: string, category: string)
    requires category != ""
    ensures forall p :: p in CatalogProducts(products, search, Some(category)) ==> p.categoryId == category
  {
  }
}

=== FILE: currency.dfy ===
/** Totals calculator: VAT, cash-denomination rounding and cart totals.
    Money is an exact `real`; JavaScript's `Math.round` and `Math.ceil` are
    written out on it. */
module Currency {
  import opened Records

  /** JavaScript `Math.round`: the nearest integer, halves rounded up. */
  function JsRound(x: real): (r: int)
    ensures x - 0.5 < r as real <= x + 0.5
  {
    (x + 0.5).Floor
  }

  /** JavaScript `Math.ceil`: the least integer not below `x`. */
  function JsCeil(x: real): (r: int)
    ensures x <= r as real < x + 1.0
  {
    -((-x).Floor)
  }

  /** `x` has no fraction of a cent. */
  predicate IsWholeCents(x: real) {
    (x * 100.0).Floor as real == x * 100.0
  }

  /** `Math.round(x * 100) / 100`: `x` rounded to the nearest cent. */
  function ToCents(x: real): (r: real)
    ensures IsWholeCents(r)
    ensures x - 0.005 < r <= x + 0.005
  {
    JsRound(x * 100.0) as real / 100.0
  }

  const VatRate: real := 0.075

  /** VAT on `amount`, rounded to the cent. */
  function CalculateVat(amount: real): (r: real)
    ensures IsWholeCents(r)
    ensures amount * VatRate - 0.005 < r <= amount * VatRate + 0.005
  {
    ToCents(amount * VatRate)
  }

  /** `amount` plus its cent-rounded VAT. */
  function CalculateWithVat(amount: real): (r: real)
    ensures amount * (1.0 + VatRate) - 0.005 < r <= amount * (1.0 + VatRate) + 0.005
  {
    amount + CalculateVat(amount)
  }

  /** The cash denominations the rounding accepts. */
  type Denomination = d: int | d == 5 || d == 10 witness 5

  /** `x` is a whole number of `d`-unit coins. */
  predicate IsMultipleOf(x: real, d: Denomination) {
    (x / d as real).Floor as real == x / d as real
  }

  /** `amount` rounded to the nearest multiple of `d`, halves rounded up. */
  function RoundToNaira(amount: real, d: Denomination): (r: real)
    ensures IsMultipleOf(r, d)
    ensures amount - d as real / 2.0 < r <= amount + d as real / 2.0
  {
    var k := JsRound(amount / d as real);
    ScaledMultiple(amount, k, d);
    k as real * d as real
  }

  /** The facts about `k * d` that `RoundToNaira` needs, split on the two denominations. */
  lemma ScaledMultiple(amount: real, k: int, d: Denomination)
    requires amount / d as real - 0.5 < k as real <= amount / d as real + 0.5
    ensures IsMultipleOf(k as real * d as real, d)
    ensures amount - d as real / 2.0 < k as real * d as real <= amount + d as real / 2.0
  {
    if d == 5 {
      assert k as real * 5.0 / 5.0 == k as real;
    } else {
      assert k as real * 10.0 / 10.0 == k as real;
    }
  }

  /** A whole multiple of the denomination is left as it is, so rounding is idempotent. */
  lemma RoundToNairaKeepsMultiples(amount: real, d: Denomination)
    requires IsMultipleOf(amount, d)
    ensures RoundToNaira(amount, d) == amount
    ensures RoundToNaira(RoundToNaira(amount, d), d) == RoundToNaira(amount, d)
  {
    var q := amount / d as real;
    assert (q + 0.5).Floor == q.Floor;
    if d == 5 {
      assert q * 5.0 == amount;
    } else {
      assert q * 10.0 == amount;
    }
  }

  /** The totals the calculator returns. */
  datatype CartTotals = CartTotals(
    subtotal: real,
    totalTax: real,
    totalDiscount: real,
    grandTotal: real,
    roundingAdjustment: real)

  function LineSubtotal(item: LineItem): real {
    item.unitPrice * item.quantity as real
  }

  function LineTaxOf(item: LineItem): real {
    LineSubtotal(item) * item.taxRate
  }

  /** Sum of `unitPrice * quantity` over the lines, in list order. */
  function SumSubtotal(items: seq<LineItem>): real {
    if |items| == 0 then 0.0
    else SumSubtotal(items[..|items| - 1]) + LineSubtotal(items[|items| - 1])
  }

  /** Sum of `unitPrice * quantity * taxRate` over the lines. */
  function SumTax(items: seq<LineItem>): real {
    if |items| == 0 then 0.0
    else SumTax(items[..|items| - 1]) + LineTaxOf(items[|items| - 1])
  }

  /** Sum of the line discounts. */
  function SumDiscount(items: seq<LineItem>): real {
    if |items| == 0 then 0.0
    else SumDiscount(items[..|items| - 1]) + items[|items| - 1].discount
  }

  /** The grand total before it is rounded to the cash denomination. */
  function BeforeRounding(items: seq<LineItem>): real {
    SumSubtotal(items) + SumTax(items) - SumDiscount(items)
  }

  /** Cart totals: the three sums rounded to the cent, the grand total rounded
      to a multiple of 5 from the UNROUNDED sums, and the cent-rounded rounding
      adjustment. */
  function Totals(items: seq<LineItem>): (t: CartTotals)
    ensures IsMultipleOf(t.grandTotal, 5)
    ensures BeforeRounding(items) - 2.5 < t.grandTotal <= BeforeRounding(items) + 2.5
    ensures SumSubtotal(items) - 0.005 < t.subtotal <= SumSubtotal(items) + 0.005
    ensures SumTax(items) - 0.005 < t.totalTax <= SumTax(items) + 0.005
    ensures SumDiscount(items) - 0.005 < t.totalDiscount <= SumDiscount(items) + 0.005
    ensures IsWholeCents(t.subtotal) && IsWholeCents(t.totalTax) && IsWholeCents(t.totalDiscount)
  {
    var before := BeforeRounding(items);
    var grand := RoundToNaira(before, 5);
    CartTotals(
      ToCents(SumSubtotal(items)),
      ToCents(SumTax(items)),
      ToCents(SumDiscount(items)),
      grand,
      ToCents(grand - before))
  }

  /** calculateCartTotals: one pass over the lines accumulating the three sums. */
  method CalculateCartTotals(items: seq<LineItem>) returns (t: CartTotals)
    ensures t == Totals(items)
  {
    var subtotal, totalTax, totalDiscount := 0.0, 0.0, 0.0;
    var i := 0;
    while i < |items|
      invariant 0 <= i <= |items|
      invariant subtotal == SumSubtotal(items[..i])
      invariant totalTax == SumTax(items[..i])
      invariant totalDiscount == SumDiscount(items[..i])
    {
      var item := items[i];
      var lineSubtotal := item.unitPrice * item.quantity as real;
      var lineTax := lineSubtotal * item.taxRate;
      assert items[..i + 1][..i] == items[..i];
      subtotal := subtotal + lineSubtotal;
      totalTax := totalTax + lineTax;
      totalDiscount := totalDiscount + item.discount;
      i := i + 1;
    }
    assert items[..i] == items;
    var before := subtotal + totalTax - totalDiscount;
    var grand := RoundToNaira(before, 5);
    var adjustment := grand - before;
    t := CartTotals(ToCents(subtotal), ToCents(totalTax), ToCents(totalDiscount), grand, ToCents(adjustment));
  }

  /** With no lines every total is zero. */
  lemma EmptyCartTotals()
    ensures Totals([]) == CartTotals(0.0, 0.0, 0.0, 0.0, 0.0)
  {
    assert JsRound(0.0) == 0;
  }

  /** The rounding adjustment is the step from the unrounded total to the grand
      total, a step of less than 2.5 either way, rounded to the cent. */
  lemma RoundingAdjustmentIsCentRounded(items: seq<LineItem>)
    ensures var t := Totals(items);
      IsMultipleOf(t.grandTotal, 5) && -2.5 < t.grandTotal - BeforeRounding(items) <= 2.5
    ensures var t := Totals(items);
      IsWholeCents(t.roundingAdjustment) &&
      t.grandTotal - BeforeRounding(items) - 0.005 < t.roundingAdjustment <= t.grandTotal - BeforeRounding(items) + 0.005
    ensures -2.505 < Totals(items).roundingAdjustment <= 2.505
  {
  }

  /** The returned, cent-rounded fields reconcile with the grand total only to
      within two cents: each of the four roundings moves a value by at most half a cent. */
  lemma RoundedTotalsReconcileWithinTwoCents(items: seq<LineItem>)
    ensures var t := Totals(items);
      -0.02 <= t.subtotal + t.totalTax - t.totalDiscount + t.roundingAdjustment - t.grandTotal <= 0.02
  {
    var t := Totals(items);
    var before := BeforeRounding(items);
    assert t.grandTotal - before - 0.005 < t.roundingAdjustment <= t.grandTotal - before + 0.005;
  }

  /** One line whose cent-rounded fields miss the grand total by a cent:
      subtotal 100, tax 7.505 (rounded to 7.51), grand total 110, adjustment 2.495 (rounded to 2.50). */
  lemma RoundedTotalsMissByACent()
    ensures var t := Totals([LineItem("l", "p", "n", 1, 100.0, 0.07505, 0.0, 100.0, 7.505)]);
      t.subtotal + t.totalTax - t.totalDiscount + t.roundingAdjustment == t.grandTotal + 0.01
  {
    var items := [LineItem("l", "p", "n", 1, 100.0, 0.07505, 0.0, 100.0, 7.505)];
    assert items[..0] == [];
    assert SumSubtotal(items) == 100.0;
    assert SumTax(items) == 7.505;
    assert SumDiscount(items) == 0.0;
    assert JsRound(107.505 / 5.0) == 22;
    assert JsRound(750.5) == 751;
    assert JsRound(249.5) == 250;
    assert JsRound(10000.0) == 10000;
    assert JsRound(0.0) == 0;
  }

  /** The grand total is rounded from the unrounded sums: a line of 2.4951 totals
      0, while rounding its cent-rounded subtotal (2.50) would give 5. */
  lemma GrandTotalUsesUnroundedSums()
    ensures var t := Totals([LineItem("l", "p", "n", 1, 2.4951, 0.0, 0.0, 2.4951, 0.0)]);
      t.grandTotal == 0.0 && t.subtotal == 2.5 &&
      RoundToNaira(t.subtotal + t.totalTax - t.totalDiscount, 5) == 5.0
  {
    var items := [LineItem("l", "p", "n", 1, 2.4951, 0.0, 0.0, 2.4951, 0.0)];
    assert items[..0] == [];
    assert SumSubtotal(items) == 2.4951;
    assert SumTax(items) == 0.0;
    assert SumDiscount(items) == 0.0;
    assert JsRound(2.4951 / 5.0) == 0;
    assert JsRound(249.51) == 250;
    assert JsRound(0.0) == 0;
    assert JsRound(2.5 / 5.0) == 1;
  }

  /** One line of price 300, quantity 2, VAT 7.5%: subtotal 600, tax 45, grand total 645. */
  lemma SingleLineExample()
    ensures Totals([LineItem("l", "p", "n", 2, 300.0, 0.075, 0.0, 600.0, 45.0)])
         == CartTotals(600.0, 45.0, 0.0, 645.0, 0.0)
  {
    var items := [LineItem("l", "p", "n", 2, 300.0, 0.075, 0.0, 600.0, 45.0)];
    assert items[..0] == [];
    assert SumSubtotal(items) == 600.0;
    assert SumTax(items) == 45.0;
    assert SumDiscount(items) == 0.0;
    assert JsRound(645.0 / 5.0) == 129;
    assert JsRound(60000.0) == 60000;
    assert JsRound(4500.0) == 4500;
    assert JsRound(0.0) == 0;
  }
}

=== FILE: identity.dfy ===
/** The identity store: the built-in accounts, login, logout and the
    capability check every gated operation uses. */
module Identity {
  import opened Records

  /** A built-in account: its password and the user it logs in as, minus the location. */
  datatype Account = Account(
    password: string,
    id: string,
    username: string,
    name: string,
    role: Role,
    permissions: seq<string>)

  /** The account table keyed by user name. */
  function AccountFor(username: string): (r: Option<Account>)
    ensures r.Some? <==> username == "cashier" || username == "supervisor" || username == "manager"
    ensures r.Some? ==> r.value.username == username && r.value.password == "1234"
    ensures r.Some? ==> r.value.role != Admin
  {
    if username == "cashier" then
      Some(Account("1234", "USR001", "cashier", "John Cashier", Cashier,
        ["pos:sale.create", "pos:sale.void", "pos:receipt.view"]))
    else if username == "supervisor" then
      Some(Account("1234", "USR002", "supervisor", "Jane Supervisor", Supervisor,
        ["pos:sale.create", "pos:sale.void", "pos:receipt.view", "pos:shift.open",
         "pos:shift.close", "pos:shift.xreport", "pos:shift.zreport", "pos:inventory.adjust",
         "pos:cash.movement", "pos:approval.grant"]))
    else if username == "manager" then
      Some(Account("1234", "USR003", "manager", "Bob Manager", Manager,
        ["pos:sale.create", "pos:sale.void", "pos:receipt.view", "pos:shift.open",
         "pos:shift.close", "pos:shift.xreport", "pos:shift.zreport", "pos:inventory.adjust",
         "pos:cash.movement", "pos:approval.grant", "pos:reports.view", "pos:settings.edit"]))
    else None
  }

  /** The location-name table. */
  function LocationNameOf(locationId: string): Option<string> {
    if locationId == "LOC001" then Some("Main Store")
    else if locationId == "LOC002" then Some("Branch 1")
    else if locationId == "LOC003" then Some("Branch 2")
    else None
  }

  const UnknownLocation: string := "Unknown Location"
  const InvalidCredentials: string := "Invalid username or password"

  /** The user a successful login produces: the account plus the chosen location. */
  function SessionUser(account: Account, locationId: string): (u: User)
    ensures u.id == account.id && u.username == account.username && u.name == account.name
    ensures u.role == account.role && u.permissions == account.permissions
    ensures u.locationId == locationId
    ensures u.locationName == match LocationNameOf(locationId)
      case Some(n) => n
      case None => UnknownLocation
  {
    var locationName := match LocationNameOf(locationId)
      case Some(n) => n
      case None => UnknownLocation;
    User(account.id, account.username, account.name, account.role, locationId, locationName,
      account.permissions)
  }

  /** hasPermission: no user has nothing, an admin has everything, anyone else
      has exactly the capabilities listed on the user. */
  predicate Permits(user: Option<User>, permission: string) {
    match user
    case None => false
    case Some(u) => u.role == Admin || permission in u.permissions
  }

  lemma NoUserHasNoPermission(permission: string)
    ensures !Permits(None, permission)
  {
  }

  lemma AdminHasEveryPermission(u: User, permission: string)
    requires u.role == Admin
    ensures Permits(Some(u), permission)
  {
  }

  lemma PermissionIsListed(u: User, permission: string)
    requires u.role != Admin
    ensures Permits(Some(u), permission) <==> permission in u.permissions
  {
  }

  /** Of the built-in accounts, the supervisor and the manager may grant approvals
      and the cashier may not; only the manager may view reports. */
  lemma BuiltInApprovalRights(locationId: string)
    ensures Permits(Some(SessionUser(AccountFor("supervisor").value, locationId)), ApprovalGrant)
    ensures Permits(Some(SessionUser(AccountFor("manager").value, locationId)), ApprovalGrant)
    ensures !Permits(Some(SessionUser(AccountFor("cashier").value, locationId)), ApprovalGrant)
    ensures Permits(Some(SessionUser(AccountFor("manager").value, locationId)), ReportsView)
    ensures !Permits(Some(SessionUser(AccountFor("supervisor").value, locationId)), ReportsView)
  {
    var cashier := AccountFor("cashier").value.permissions;
    assert forall i :: 0 <= i < |cashier| ==> cashier[i] != ApprovalGrant by {
      assert cashier[0][4] != ApprovalGrant[4];
      assert cashier[1][4] != ApprovalGrant[4];
      assert cashier[2][4] != ApprovalGrant[4];
    }
    var supervisor := AccountFor("supervisor").value.permissions;
    assert supervisor[9] == ApprovalGrant;
    assert forall i :: 0 <= i < |supervisor| ==> supervisor[i] != ReportsView by {
      forall i | 0 <= i < |supervisor|
        ensures supervisor[i] != ReportsView
      {
        if i == 9 {
          assert supervisor[i][4] != ReportsView[4];
        } else {
          assert supervisor[i][4] != ReportsView[4] || supervisor[i][5] != ReportsView[5]
            || supervisor[i][6] != ReportsView[6] || |supervisor[i]| != |ReportsView|;
        }
      }
    }
    var manager := AccountFor("manager").value.permissions;
    assert manager[9] == ApprovalGrant;
    assert manager[10] == ReportsView;
  }

  /** The authentication store. */
  class AuthStore {
    var user: Option<User>
    var token: Option<string>
    var isLoading: bool
    var error: Option<string>

    constructor ()
      ensures user == None && token == None && !isLoading && error == None
    {
      user, token, isLoading, error := None, None, false, None;
    }

    /** hasPermission, read against the logged-in user. */
    predicate HasPermission(permission: string)
      reads this
    {
      Permits(user, permission)
    }

    /** login: an unknown user name or a wrong password records the error and
        leaves the session alone; otherwise the account's user at `locationId`
        becomes the session user with the freshly issued `newToken`. */
    method Login(username: string, password: string, locationId: string, newToken: string)
      modifies this
      ensures !isLoading
      ensures match AccountFor(username)
        case Some(a) =>
          if a.password == password then
            user == Some(SessionUser(a, locationId)) && token == Some(newToken) && error == None
          else
            user == old(user) && token == old(token) && error == Some(InvalidCredentials)
        case None =>
          user == old(user) && token == old(token) && error == Some(InvalidCredentials)
    {
      isLoading, error := true, None;
      var account := AccountFor(username);
      if account.None? || account.value.password != password {
        isLoading, error := false, Some(InvalidCredentials);
        return;
      }
      user := Some(SessionUser(account.value, locationId));
      token := Some(newToken);
      isLoading, error := false, None;
    }

    /** logout: the session user, its token and any error are cleared. */
    method Logout()
      modifies this`user, this`token, this`error
      ensures user == None && token == None && error == None
    {
      user, token, error := None, None, None;
    }
  }
}

=== FILE: movements.dfy ===
/** Cash movements: the form's submit handler for drops, pickups and float
    adjustments against the current shift. */
module Movements {
  import opened Records
  import opened Storage
  import opened Identity
  import opened ShiftLedger

  /** Where the cash goes: a drop moves it from the register to the safe,
      anything else from the safe to the register. */
  function FromLocation(kind: MovementType): string {
    if kind == Drop then "register" else "safe"
  }

  function ToLocation(kind: MovementType): string {
    if kind == Drop then "safe" else "register"
  }

  /** The change a movement makes to the register's expected cash. */
  function CashDelta(kind: MovementType, amount: real): (d: real)
    ensures kind == Drop ==> d == -amount
    ensures kind != Drop ==> d == amount
    ensures amount > 0.0 ==> d != 0.0
  {
    if kind == Drop then -amount else amount
  }

  lemma DropLeavesRegister(amount: real)
    ensures FromLocation(Drop) == "register" && ToLocation(Drop) == "safe"
    ensures FromLocation(Pickup) == ToLocation(Drop) && ToLocation(Pickup) == FromLocation(Drop)
    ensures FromLocation(FloatAdjustment) == "safe" && ToLocation(FloatAdjustment) == "register"
  {
  }

  /** The movement record a submit writes. */
  function MovementRecord(id: string, kind: MovementType, amount: real, reason: string, u: User,
                          shiftId: string, now: int): (m: CashMovement)
    ensures m.status == Approved <==> Permits(Some(u), ApprovalGrant)
    ensures m.status == PendingApproval <==> !Permits(Some(u), ApprovalGrant)
    ensures m.status == Approved ==>
      m.approvedBy == Some(u.id) && m.approvedByName == Some(u.name) && m.approvedAt == Some(now)
    ensures m.status != Approved ==> m.approvedBy == None && m.approvedByName == None && m.approvedAt == None
    ensures m.id == id && m.kind == kind && m.amount == amount && m.shiftId == shiftId
    ensures m.fromLocation == FromLocation(kind) && m.toLocation == ToLocation(kind)
    ensures m.createdBy == u.id && m.syncStatus == SyncPending
  {
    var grants := Permits(Some(u), ApprovalGrant);
    CashMovement(id, kind, amount, FromLocation(kind), ToLocation(kind), reason, u.id, u.name, now,
      if grants then Some(u.id) else None,
      if grants then Some(u.name) else None,
      if grants then Some(now) else None,
      shiftId,
      if grants then Approved else PendingApproval,
      SyncPending)
  }

  /** The shift row after an approved movement, written from the in-memory shift `s`. */
  function MovedRow(row: Shift, s: Shift, delta: real): (r: Shift)
    ensures r.expectedCash == s.expectedCash + delta
    ensures r == row.(expectedCash := r.expectedCash)
  {
    row.(expectedCash := s.expectedCash + delta)
  }

  /** The form's submit: record the movement against the current shift, queue
      it for sync and, when approved on the spot, write the shift row's
      expected cash as the in-memory figure plus the movement.  The in-memory
      shift is not updated.  The form only submits a positive amount and a
      reason; without a user or a current shift nothing is written. */
  method SubmitMovement(db: Db, auth: AuthStore, shifts: ShiftStore, kind: MovementType, amount: real,
                        reason: string, id: string, now: int)
    requires shifts.db == db && shifts.auth == auth
    requires db.Valid() && id !in db.movements
    requires amount > 0.0 && reason != ""
    modifies db`movements, db`syncQueue, db`nextSyncId, db`shifts
    ensures db.Valid()
    ensures auth.user.None? || shifts.currentShift.None? ==> unchanged(db)
    ensures auth.user.Some? && shifts.currentShift.Some? ==>
      var s := shifts.currentShift.value;
      var m := MovementRecord(id, kind, amount, reason, auth.user.value, s.id, now);
      && db.movements == old(db.movements)[id := m]
      && db.syncQueue == old(db.syncQueue)
           + [SyncItem(old(db.nextSyncId), MovementEntity, id, MovementPayload(m), 0, now, None)]
      && db.shifts == (if m.status == Approved && s.id in old(db.shifts)
                       then old(db.shifts)[s.id := MovedRow(old(db.shifts)[s.id], s, CashDelta(kind, amount))]
                       else old(db.shifts))
    ensures auth.user.Some? && auth.HasPermission(ApprovalGrant) && old(shifts.InSync()) && shifts.currentShift.Some? ==>
      !shifts.InSync()
    ensures !auth.HasPermission(ApprovalGrant) && old(shifts.InSync()) ==> shifts.InSync()
  {
    if auth.user.None? || shifts.currentShift.None? {
      return;
    }
    var u := auth.user.value;
    var s := shifts.currentShift.value;
    var m := MovementRecord(id, kind, amount, reason, u, s.id, now);
    db.movements := db.movements[id := m];
    var _ := db.AddSyncItem(MovementEntity, id, MovementPayload(m), now);
    if m.status == Approved && s.id in db.shifts {
      db.shifts := db.shifts[s.id := MovedRow(db.shifts[s.id], s, CashDelta(kind, amount))];
    }
  }

  /** The submit as evidently intended: the approved movement is applied to
      the in-memory shift as well as to its row, so the two stay in step and
      the next sale or close builds on the moved figure. */
  method SubmitMovementInStep(db: Db, auth: AuthStore, shifts: ShiftStore, kind: MovementType, amount: real,
                              reason: string, id: string, now: int)
    requires shifts.db == db && shifts.auth == auth
    requires db.Valid() && id !in db.movements
    requires amount > 0.0 && reason != ""
    modifies db`movements, db`syncQueue, db`nextSyncId, db`shifts, shifts`currentShift
    ensures db.Valid()
    ensures auth.user.None? || old(shifts.currentShift).None? ==> unchanged(db) && unchanged(shifts)
    ensures auth.user.Some? && old(shifts.currentShift).Some? ==>
      var s := old(shifts.currentShift).value;
      var m := MovementRecord(id, kind, amount, reason, auth.user.value, s.id, now);
      && db.movements == old(db.movements)[id := m]
      && db.syncQueue == old(db.syncQueue)
           + [SyncItem(old(db.nextSyncId), MovementEntity, id, MovementPayload(m), 0, now, None)]
      && shifts.currentShift == (if m.status == Approved
                                 then Some(s.(expectedCash := s.expectedCash + CashDelta(kind, amount)))
                                 else Some(s))
      && db.shifts == (if m.status == Approved && s.id in old(db.shifts)
                       then old(db.shifts)[s.id := MovedRow(old(db.shifts)[s.id], s, CashDelta(kind, amount))]
                       else old(db.shifts))
    ensures old(shifts.InSync()) ==> shifts.InSync()
  {
    if auth.user.None? || shifts.currentShift.None? {
      return;
    }
    var u := auth.user.value;
    var s := shifts.currentShift.value;
    var m := MovementRecord(id, kind, amount, reason, u, s.id, now);
    db.movements := db.movements[id := m];
    var _ := db.AddSyncItem(MovementEntity, id, MovementPayload(m), now);
    if m.status == Approved {
      if s.id in db.shifts {
        db.shifts := db.shifts[s.id := MovedRow(db.shifts[s.id], s, CashDelta(kind, amount))];
      }
      shifts.currentShift := Some(s.(expectedCash := s.expectedCash + CashDelta(kind, amount)));
    }
  }

  /** As written: a 300 drop approved on a shift expecting 1000, then a 500
      cash sale, leaves the row expecting 1500; the drop is lost. */
  lemma DropLostOnNextCashSale(s: Shift)
    requires s.expectedCash == 1000.0
    ensures var afterDrop := MovedRow(s, s, CashDelta(Drop, 300.0));
      afterDrop.expectedCash == 700.0
      && SaleRow(afterDrop, WithSale(s, 500.0)).expectedCash == 1500.0
  {
  }

  /** In step: the same drop and sale leave row and memory both expecting 1200. */
  lemma DropKeptInStep(s: Shift)
    requires s.expectedCash == 1000.0
    ensures var moved := s.(expectedCash := s.expectedCash + CashDelta(Drop, 300.0));
      var afterSale := WithSale(moved, 500.0);
      SaleRow(MovedRow(s, s, CashDelta(Drop, 300.0)), afterSale).expectedCash == 1200.0
      && afterSale.expectedCash == 1200.0
  {
  }
}

=== FILE: payment.dfy ===
/** The payment screen: method choice with its offline gate, the change shown,
    the quick-cash buttons, and the submit that completes the sale. */
module Payment {
  import opened Records
  import opened Currency
  import opened Seqs
  import opened Storage
  import opened Identity
  import opened ShiftLedger
  import opened CartEngine

  datatype Step = ChooseMethod | Details | Receipt

  /** What the screen holds between events. */
  datatype Screen = Screen(step: Step, selected: Option<PaymentMethod>)

  /** The amount due: the active cart's grand total, or 0 with no cart. */
  function AmountDue(cart: Option<Cart>): real {
    if cart.Some? then cart.value.grandTotal else 0.0
  }

  /** The change shown: only for cash, never negative. */
  function Change(selected: Option<PaymentMethod>, tendered: real, total: real): (c: real)
    ensures c >= 0.0
    ensures selected != Some(Cash) ==> c == 0.0
    ensures selected == Some(Cash) && tendered >= total ==> c == tendered - total
  {
    if selected == Some(Cash) && tendered > total then tendered - total else 0.0
  }

  /** The change shown is the change the sale records. */
  lemma ShownChangeIsRecorded(m: PaymentMethod, tendered: real, total: real)
    ensures Change(Some(m), tendered, total) == ChangeDue(m, tendered, total)
  {
  }

  /** Cash and bank transfer may be taken offline; card and mobile money may not. */
  predicate OfflineAllowed(m: PaymentMethod) {
    m == Cash || m == BankTransfer
  }

  /** Choosing a method: refused offline for methods that need the network,
      otherwise the method is selected and the details step shown. */
  function SelectMethod(s: Screen, online: bool, m: PaymentMethod): (r: Screen)
    ensures !online && !OfflineAllowed(m) ==> r == s
    ensures online || OfflineAllowed(m) ==> r == Screen(Details, Some(m))
  {
    if !online && !OfflineAllowed(m) then s else Screen(Details, Some(m))
  }

  lemma OfflineGate(s: Screen)
    ensures SelectMethod(s, false, Card) == s && SelectMethod(s, false, Mobile) == s
    ensures SelectMethod(s, false, Cash) == Screen(Details, Some(Cash))
    ensures SelectMethod(s, false, BankTransfer) == Screen(Details, Some(BankTransfer))
  {
  }

  /** `Math.ceil(total / unit) * unit`. */
  function CeilTo(total: real, unit: real): real
    requires unit > 0.0
  {
    JsCeil(total / unit) as real * unit
  }

  /** `x` is a whole number of `unit`s. */
  predicate WholeUnits(x: real, unit: real)
    requires unit > 0.0
  {
    (x / unit).Floor as real == x / unit
  }

  /** The candidate amounts before duplicates are dropped: the total, then the
      least multiple of 100, 500 and 1000 that is at least the total. */
  function QuickCashCandidates(total: real): (r: seq<real>)
    ensures |r| == 4 && r[0] == total
    ensures WholeUnits(r[1], 100.0) && WholeUnits(r[2], 500.0) && WholeUnits(r[3], 1000.0)
    ensures total <= r[1] < total + 100.0 && total <= r[2] < total + 500.0
    ensures total <= r[3] < total + 1000.0
  {
    CeilIsWhole(total, 100.0);
    CeilIsWhole(total, 500.0);
    CeilIsWhole(total, 1000.0);
    [total, CeilTo(total, 100.0), CeilTo(total, 500.0), CeilTo(total, 1000.0)]
  }

  /** Rounding up to a unit gives a whole number of units. */
  lemma CeilIsWhole(total: real, unit: real)
    requires unit > 0.0
    ensures WholeUnits(CeilTo(total, unit), unit)
  {
    var n := JsCeil(total / unit);
    assert CeilTo(total, unit) / unit == n as real;
  }

  /** The quick-cash buttons: the exact total, then the total rounded up to
      the next 100, 500 and 1000, each amount once, in that order. */
  function QuickCashAmounts(total: real): (r: seq<real>)
    ensures 1 <= |r| <= 4 && r[0] == total
    ensures NoDuplicates(r)
    ensures forall i :: 0 <= i < |r| ==> r[i] >= total && r[i] in QuickCashCandidates(total)
    ensures forall i :: 0 <= i < 4 ==> QuickCashCandidates(total)[i] in r
    ensures forall i, j :: 0 <= i < j < |r| ==>
      FirstIndex(QuickCashCandidates(total), r[i]) < FirstIndex(QuickCashCandidates(total), r[j])
  {
    var c := QuickCashCandidates(total);
    DedupHead(c);
    Dedup(c)
  }

  /** Rounding a whole number of units up to that unit leaves it alone. */
  lemma CeilOfWhole(n: int, unit: real)
    requires unit > 0.0
    ensures CeilTo(n as real * unit, unit) == n as real * unit
  {
    assert n as real * unit / unit == n as real;
  }

  /** A total already a multiple of 1000 gets a single button. */
  lemma RoundTotalHasOneButton(k: int)
    ensures QuickCashAmounts(k as real * 1000.0) == [k as real * 1000.0]
  {
    var t := k as real * 1000.0;
    var c := QuickCashCandidates(t);
    assert c == [t, t, t, t] by {
      assert (k * 10) as real * 100.0 == t && (k * 2) as real * 500.0 == t;
      CeilOfWhole(k * 10, 100.0);
      CeilOfWhole(k * 2, 500.0);
      CeilOfWhole(k, 1000.0);
      assert CeilTo(t, 100.0) == t && CeilTo(t, 500.0) == t && CeilTo(t, 1000.0) == t;
    }
    DedupConstant(c, t);
  }

  /** The submit button is disabled while processing, and for cash while the tender is short. */
  predicate SubmitDisabled(isProcessing: bool, selected: Option<PaymentMethod>, tendered: real, total: real) {
    isProcessing || (selected == Some(Cash) && tendered < total)
  }

  /** A cash sale submitted from the screen balances the drawer. */
  lemma EnabledCashSubmitBalances(cart: Cart, u: User, tendered: real, ref: Option<string>, id: string, now: int)
    requires !SubmitDisabled(false, Some(Cash), tendered, AmountDue(Some(cart)))
    ensures var t := SaleTransaction(cart, u, Cash, tendered, ref, id, now);
      t.paymentAmount + t.changeGiven == tendered && t.changeGiven == Change(Some(Cash), tendered, cart.grandTotal)
  {
    CashSaleBalances(cart, u, tendered, ref, id, now);
  }

  /** The submit: nothing without an active cart; otherwise the sale is
      completed, and on success the receipt step is shown (a refused sale
      leaves the screen as it was).  The form only submits a tender of at least 0. */
  method Submit(store: CartStore, s: Screen, paid: PaymentMethod, tendered: real, referenceNumber: Option<string>,
                txId: string, now: int)
    returns (outcome: Option<Result<Transaction>>, next: Screen)
    requires tendered >= 0.0
    requires store.db.Valid() && store.Wired() && !HasTransaction(store.db.transactions, txId)
    modifies store`activeCart, store.db`carts, store.db`transactions, store.db`syncQueue, store.db`nextSyncId
    modifies store.db`shifts, store.shifts`currentShift
    ensures store.db.Valid()
    ensures old(store.activeCart).None? ==>
      outcome == None && next == s && unchanged(store) && unchanged(store.db) && unchanged(store.shifts)
    ensures old(store.activeCart).Some? && store.auth.user.None? ==>
      outcome == Some(Err(NoActiveCartOrUser)) && next == s
      && unchanged(store) && unchanged(store.db) && unchanged(store.shifts)
    ensures old(store.activeCart).Some? && store.auth.user.Some? ==>
      var cart := old(store.activeCart).value;
      var tx := SaleTransaction(cart, store.auth.user.value, paid, tendered, referenceNumber, txId, now);
      && outcome == Some(Ok(tx)) && next == s.(step := Receipt)
      && store.activeCart == None && store.db.transactions == old(store.db.transactions) + [tx]
      && store.db.carts == WithCartStatus(old(store.db.carts), cart.id, Completed)
      && store.db.syncQueue == old(store.db.syncQueue)
           + [SyncItem(old(store.db.nextSyncId), TransactionEntity, txId, SalePayload(tx, cart), 0, now, None)]
    ensures old(store.activeCart).Some? && store.auth.user.Some? && paid == Cash ==>
      var current := old(store.shifts.currentShift);
      var amount := old(store.activeCart).value.grandTotal;
      && store.shifts.currentShift == (if current.Some? then Some(WithSale(current.value, amount)) else None)
      && store.db.shifts == (if current.Some? && current.value.id in old(store.db.shifts)
           then old(store.db.shifts)[current.value.id := SaleRow(old(store.db.shifts)[current.value.id],
                                                                 WithSale(current.value, amount))]
           else old(store.db.shifts))
    ensures paid != Cash ==>
      store.shifts.currentShift == old(store.shifts.currentShift) && store.db.shifts == old(store.db.shifts)
    ensures old(store.shifts.InSync()) ==> store.shifts.InSync()
  {
    if store.activeCart.None? {
      return None, s;
    }
    var r := store.CompleteTransaction(paid, tendered, referenceNumber, txId, now);
    outcome := Some(r);
    next := if r.Ok? then s.(step := Receipt) else s;
  }
}

=== FILE: product_search.dfy ===
/** The sale screen's product search: the live result list and picking a product. */
module ProductSearch {
  import opened Records
  import opened Text
  import opened Seqs
  import opened CartLines
  import opened Storage
  import opened CartEngine

  /** The product's lower-cased name, SKU or barcode (when it has one) contains `query`. */
  predicate Matches(p: Product, query: string) {
    Contains(Lower(p.name), query) || Contains(Lower(p.sku), query)
    || (p.barcode.Some? && Contains(Lower(p.barcode.value), query))
  }

  /** The results: none for a blank search; otherwise the matching products
      in table order, against the lower-cased but untrimmed search text. */
  function FilteredProducts(products: seq<Product>, search: string): (r: seq<Product>)
    ensures IsBlank(search) ==> r == []
    ensures !IsBlank(search) ==> forall p :: p in r <==> p in products && Matches(p, Lower(search))
    ensures SubsequenceOf(r, products)
  {
    if IsBlank(search) then []
    else
      var query := Lower(search);
      var r := Filter(products, p => Matches(p, query));
      assert forall p :: p in products && Matches(p, query) ==> p in r by {
        forall p | p in products && Matches(p, query) ensures p in r {
          var i :| 0 <= i < |products| && products[i] == p;
        }
      }
      r
  }

  /** On a one-product table the result is that product exactly when it matches. */
  lemma SingleProductResult(p: Product, search: string)
    requires !IsBlank(search)
    ensures FilteredProducts([p], search) == if Matches(p, Lower(search)) then [p] else []
  {
    var query := Lower(search);
    var keep := (q: Product) => Matches(q, query);
    assert [p][1..] == [];
    assert Filter([p], keep) == if keep(p) then [p] + Filter([], keep) else Filter([], keep);
  }

  function Rice(): Product {
    Product("3", "PRD003", "Rice", "", 8500.0, 0.075, "groceries", None, true, 30, 0)
  }

  lemma RiceLowered()
    ensures Lower("Rice") == "rice" && Lower("PRD003") == "prd003"
  {
    var name := Lower("Rice");
    assert name[0] == 'r' && name[1] == 'i' && name[2] == 'c' && name[3] == 'e';
    var sku := Lower("PRD003");
    assert sku[0] == 'p' && sku[1] == 'r' && sku[2] == 'd';
    assert sku[3] == '0' && sku[4] == '0' && sku[5] == '3';
  }

  lemma SearchesLowered()
    ensures Lower("rice") == "rice" && Lower(" rice") == " rice"
    ensures !IsBlank("rice") && !IsBlank(" rice")
  {
    var a := Lower("rice");
    assert a[0] == 'r' && a[1] == 'i' && a[2] == 'c' && a[3] == 'e';
    var b := Lower(" rice");
    assert b[0] == ' ' && b[1] == 'r' && b[2] == 'i' && b[3] == 'c' && b[4] == 'e';
    assert !IsJsWhitespace("rice"[0]);
    assert !IsJsWhitespace(" rice"[1]);
  }

  lemma RiceMatches()
    ensures Matches(Rice(), "rice")
  {
    RiceLowered();
    assert "rice" <= Lower(Rice().name);
  }

  lemma RiceMissesSpaced()
    ensures !Matches(Rice(), " rice")
  {
    RiceLowered();
    MissingCharNotContained("rice", " rice", 0);
    MissingCharNotContained("prd003", " rice", 0);
  }

  /** The search text is not trimmed: a leading space stops a match the bare word makes. */
  lemma SearchIsNotTrimmed()
    ensures FilteredProducts([Rice()], "rice") == [Rice()]
    ensures FilteredProducts([Rice()], " rice") == []
  {
    SearchesLowered();
    RiceMatches();
    RiceMissesSpaced();
    SingleProductResult(Rice(), "rice");
    SingleProductResult(Rice(), " rice");
  }

  /** Picking a result adds one of the product to the cart and clears the search. */
  method SelectProduct(store: CartStore, product: Product, cartId: string, lineId: string, now: int)
    returns (search: string)
    requires store.db.Valid()
    requires store.activeCart.None? ==> cartId !in store.db.carts
    modifies store`activeCart, store.db`carts
    ensures store.db.Valid()
    ensures search == ""
    ensures var base := if old(store.activeCart).Some? then old(store.activeCart).value else NewCart(cartId, now);
      var c := Repriced(base, AddLines(base.lineItems, product, 1, lineId), now);
      && store.activeCart == Some(c)
      && store.db.carts == UpdateRow(if old(store.activeCart).Some? then old(store.db.carts)
           else old(store.db.carts)[cartId := base], base.id, c)
    ensures HasProduct(store.activeCart.value.lineItems, product.id)
    ensures old(store.Mirrors()) ==> store.Mirrors()
  {
    store.AddToCart(product, 1, cartId, lineId, now);
    search := "";
  }
}

=== FILE: records.dfy ===
/** Record shapes of the point-of-sale store (products, carts, transactions,
    shifts, the sync outbox and the approval-gated requests).  Optional
    fields of the source records are `Option`s; `None` stands for a key that
    is absent from the stored object. */
module Records {

  datatype Option<+T> = None | Some(value: T)

  /** Why a store operation refused to run; the source throws an Error. */
  datatype Failure = NotAuthenticated | NoActiveShift | NoActiveCartOrUser

  datatype Result<+T> = Ok(value: T) | Err(error: Failure)

  /** The outcome of an operation that returns nothing but may throw. */
  datatype Outcome = Done | Refused(error: Failure)

  datatype Product = Product(
    id: string,
    sku: string,
    name: string,
    description: string,
    price: real,
    taxRate: real,
    categoryId: string,
    barcode: Option<string>,
    inStock: bool,
    stockQuantity: int,
    updatedAt: int)

  datatype LineItem = LineItem(
    id: string,
    productId: string,
    productName: string,
    quantity: int,
    unitPrice: real,
    taxRate: real,
    discount: real,
    lineTotal: real,
    lineTax: real)

  datatype CartStatus = Active | Completed | Cancelled

  datatype Cart = Cart(
    id: string,
    status: CartStatus,
    lineItems: seq<LineItem>,
    subtotal: real,
    totalTax: real,
    totalDiscount: real,
    grandTotal: real,
    roundingAdjustment: real,
    createdAt: int,
    updatedAt: int)

  datatype PaymentMethod = Cash | BankTransfer | Card | Mobile

  datatype TransactionStatus = TxPending | TxCompleted | TxSynced | TxFailed

  datatype SyncStatus = SyncPending | Synced | SyncFailed

  /** The one kind of audit entry the core writes: a completed sale. */
  datatype AuditEntry = AuditEntry(
    action: string,
    userId: string,
    timestamp: int,
    total: real,
    paymentMethod: PaymentMethod,
    itemCount: nat)

  datatype Transaction = Transaction(
    id: string,
    cartId: string,
    paymentMethod: PaymentMethod,
    paymentAmount: real,
    changeGiven: real,
    referenceNumber: Option<string>,
    status: TransactionStatus,
    syncStatus: SyncStatus,
    auditTrail: seq<AuditEntry>,
    offlineCreatedAt: int,
    syncedAt: Option<int>)

  datatype XReport = XReport(
    id: string,
    generatedAt: int,
    generatedBy: string,
    salesCount: nat,
    salesTotal: real,
    cashTotal: real,
    cardTotal: real,
    transferTotal: real)

  datatype ZReport = ZReport(
    id: string,
    generatedAt: int,
    generatedBy: string,
    approvedBy: Option<string>,
    approvedAt: Option<int>,
    salesCount: nat,
    salesTotal: real,
    cashTotal: real,
    cardTotal: real,
    transferTotal: real,
    expectedCash: real,
    actualCash: real,
    variance: real)

  datatype ShiftStatus = Open | Closed

  datatype Shift = Shift(
    id: string,
    registerId: string,
    locationId: string,
    openedBy: string,
    openedByName: string,
    openedAt: int,
    closedBy: Option<string>,
    closedByName: Option<string>,
    closedAt: Option<int>,
    openingFloat: real,
    expectedCash: real,
    actualCash: Option<real>,
    cashDifference: Option<real>,
    salesCount: int,
    salesTotal: real,
    status: ShiftStatus,
    xReports: seq<XReport>,
    zReport: Option<ZReport>,
    syncStatus: SyncStatus)

  datatype ApprovalStatus = PendingApproval | Approved | Rejected

  datatype AdjustmentReason = Damage | Theft | Correction | Received | Return

  datatype InventoryAdjustment = InventoryAdjustment(
    id: string,
    productId: string,
    productName: string,
    quantityChange: int,
    reason: AdjustmentReason,
    notes: string,
    createdBy: string,
    createdByName: string,
    createdAt: int,
    approvedBy: Option<string>,
    approvedByName: Option<string>,
    approvedAt: Option<int>,
    status: ApprovalStatus,
    locationId: string,
    syncStatus: SyncStatus)

  datatype MovementType = Drop | Pickup | FloatAdjustment

  datatype CashMovement = CashMovement(
    id: string,
    kind: MovementType,
    amount: real,
    fromLocation: string,
    toLocation: string,
    reason: string,
    createdBy: string,
    createdByName: string,
    createdAt: int,
    approvedBy: Option<string>,
    approvedByName: Option<string>,
    approvedAt: Option<int>,
    shiftId: string,
    status: ApprovalStatus,
    syncStatus: SyncStatus)

  datatype EntityType = TransactionEntity | ShiftEntity | AdjustmentEntity | MovementEntity

  datatype ShiftAction = OpenAction | CloseAction

  /** What an outbox item carries to the remote system. */
  datatype Payload =
    | SalePayload(transaction: Transaction, cart: Cart)
    | ShiftPayload(action: ShiftAction, shift: Shift)
    | AdjustmentPayload(adjustment: InventoryAdjustment)
    | MovementPayload(movement: CashMovement)

  /** A row of the outbox; `id` is the table's auto-incremented key. */
  datatype SyncItem = SyncItem(
    id: nat,
    entityType: EntityType,
    entityId: string,
    payload: Payload,
    retries: nat,
    createdAt: int,
    lastAttempt: Option<int>)

  datatype Role = Cashier | Supervisor | Manager | Admin

  datatype User = User(
    id: string,
    username: string,
    name: string,
    role: Role,
    locationId: string,
    locationName: string,
    permissions: seq<string>)

  /** The capability strings the core checks. */
  const ApprovalGrant: string := "pos:approval.grant"
  const ReportsView: string := "pos:reports.view"
}

=== FILE: seqs.dfy ===
/** Sequence helpers shared by the catalog and the payment screen. */
module Seqs {

  /** Index of the first occurrence of `x` in `s`. */
  function FirstIndex<T(==)>(s: seq<T>, x: T): (k: nat)
    requires x in s
    ensures k < |s| && s[k] == x
    ensures forall j :: 0 <= j < k ==> s[j] != x
  {
    if s[0] == x then 0 else 1 + FirstIndex(s[1..], x)
  }

  predicate NoDuplicates<T(==)>(s: seq<T>) {
    forall i, j :: 0 <= i < j < |s| ==> s[i] != s[j]
  }

  /** `r` holds the distinct elements of `s`, each once, in order of first appearance. */
  predicate IsDedupOf<T(==)>(r: seq<T>, s: seq<T>) {
    && NoDuplicates(r)
    && (forall i :: 0 <= i < |r| ==> r[i] in s)
    && (forall i :: 0 <= i < |s| ==> s[i] in r)
    && |r| <= |s|
    && (forall i, j :: 0 <= i < j < |r| ==> FirstIndex(s, r[i]) < FirstIndex(s, r[j]))
  }

  /** The distinct elements of `s`, each at its first appearance: JavaScript's
      `[...new Set(s)]` and `s.filter((v, i, a) => a.indexOf(v) === i)`. */
  function Dedup<T(==)>(s: seq<T>): (r: seq<T>)
    ensures NoDuplicates(r)
    ensures forall i :: 0 <= i < |r| ==> r[i] in s
    ensures forall i :: 0 <= i < |s| ==> s[i] in r
    ensures |r| <= |s|
    ensures forall i, j :: 0 <= i < j < |r| ==> FirstIndex(s, r[i]) < FirstIndex(s, r[j])
  {
    if |s| == 0 then []
    else
      var prev := Dedup(s[..|s| - 1]);
      DedupExtend(s, prev);
      if s[|s| - 1] in s[..|s| - 1] then prev else prev + [s[|s| - 1]]
  }

  /** Extending the deduplicated prefix by the last element, when it is new. */
  lemma DedupExtend<T>(s: seq<T>, prev: seq<T>)
    requires |s| > 0 && IsDedupOf(prev, s[..|s| - 1])
    ensures s[|s| - 1] in s[..|s| - 1] ==> IsDedupOf(prev, s)
    ensures s[|s| - 1] !in s[..|s| - 1] ==> IsDedupOf(prev + [s[|s| - 1]], s)
  {
    var init := s[..|s| - 1];
    var last := s[|s| - 1];
    FirstIndexOfPrefix(s, init);
    assert forall i :: 0 <= i < |s| - 1 ==> s[i] == init[i];
    if last !in init {
      assert FirstIndex(s, last) == |s| - 1;
    }
  }

  /** On an element of the prefix, `FirstIndex` agrees with the whole sequence. */
  lemma FirstIndexOfPrefix<T>(s: seq<T>, init: seq<T>)
    requires |init| <= |s| && init == s[..|init|]
    ensures forall x :: x in init ==> FirstIndex(s, x) == FirstIndex(init, x)
  {
    forall x | x in init
      ensures FirstIndex(s, x) == FirstIndex(init, x)
    {
      var k := FirstIndex(init, x);
      assert s[k] == x;
      assert forall j :: 0 <= j < k ==> s[j] == init[j];
      var m := FirstIndex(s, x);
      assert m <= k;
    }
  }

  /** A sequence without duplicates is left as it is. */
  lemma {:induction false} DedupOfDistinct<T>(s: seq<T>)
    requires NoDuplicates(s)
    ensures Dedup(s) == s
  {
    if |s| > 0 {
      var init := s[..|s| - 1];
      DedupOfDistinct(init);
      assert s[|s| - 1] !in init;
      assert init + [s[|s| - 1]] == s;
    }
  }

  /** `r` is `s` with some elements left out, the rest in their order. */
  predicate SubsequenceOf<T(==)>(r: seq<T>, s: seq<T>)
    decreases |s|
  {
    if |r| == 0 then true
    else if |s| == 0 then false
    else (r[0] == s[0] && SubsequenceOf(r[1..], s[1..])) || SubsequenceOf(r, s[1..])
  }

  /** `s.filter(keep)`: the elements `keep` accepts, in their order. */
  function Filter<T(==)>(s: seq<T>, keep: T -> bool): (r: seq<T>)
    ensures |r| <= |s|
    ensures forall i :: 0 <= i < |r| ==> keep(r[i]) && r[i] in s
    ensures forall i :: 0 <= i < |s| && keep(s[i]) ==> s[i] in r
    ensures SubsequenceOf(r, s)
  {
    if |s| == 0 then []
    else
      var rest := Filter(s[1..], keep);
      assert forall i :: 1 <= i < |s| ==> s[i] == s[1..][i - 1];
      if keep(s[0]) then
        assert ([s[0]] + rest)[1..] == rest;
        [s[0]] + rest
      else rest
  }

  /** The filter keeps every copy of an accepted element and no copy of a refused one. */
  lemma {:induction false} FilterCounts<T>(s: seq<T>, keep: T -> bool)
    ensures forall x :: multiset(Filter(s, keep))[x] == if keep(x) then multiset(s)[x] else 0
  {
    if |s| > 0 {
      FilterCounts(s[1..], keep);
      assert s == [s[0]] + s[1..];
      assert multiset(s) == multiset([s[0]]) + multiset(s[1..]);
    }
  }

  /** Filtering one more element at the end appends it when it is accepted. */
  lemma {:induction false} FilterAppendOne<T>(s: seq<T>, x: T, keep: T -> bool)
    ensures Filter(s + [x], keep) == Filter(s, keep) + (if keep(x) then [x] else [])
  {
    if |s| == 0 {
      assert s + [x] == [x];
      assert [x][1..] == [];
    } else {
      assert (s + [x])[1..] == s[1..] + [x];
      FilterAppendOne(s[1..], x, keep);
    }
  }

  /** The filter keeps the whole length exactly when it accepts every element. */
  lemma {:induction false} FilterKeepsAll<T>(s: seq<T>, keep: T -> bool)
    ensures |Filter(s, keep)| == |s| <==> forall i :: 0 <= i < |s| ==> keep(s[i])
  {
    if |s| > 0 {
      FilterKeepsAll(s[1..], keep);
      assert forall i :: 1 <= i < |s| ==> s[i] == s[1..][i - 1];
    }
  }

  /** Taking the first element out of `a` and the same element out of the
      middle of a permutation of `a` leaves two permutations of each other. */
  lemma MultisetRemoveFirst<T>(a: seq<T>, front: seq<T>, back: seq<T>)
    requires |a| > 0 && multiset(a) == multiset(front + [a[0]] + back)
    ensures multiset(a[1..]) == multiset(front + back)
  {
    assert a == [a[0]] + a[1..];
    assert multiset(a) == multiset([a[0]]) + multiset(a[1..]);
    assert multiset(front + [a[0]] + back) == multiset(front) + multiset([a[0]]) + multiset(back);
    assert multiset(front + back) == multiset(front) + multiset(back);
    forall y
      ensures multiset(a[1..])[y] == multiset(front + back)[y]
    {
      assert multiset(a)[y] == multiset([a[0]])[y] + multiset(a[1..])[y];
      assert multiset(a)[y] == multiset(front)[y] + multiset([a[0]])[y] + multiset(back)[y];
    }
  }

  /** A filter that accepts everything keeps the whole sequence. */
  lemma {:induction false} FilterAll<T>(s: seq<T>, keep: T -> bool)
    requires forall i :: 0 <= i < |s| ==> keep(s[i])
    ensures Filter(s, keep) == s
  {
    if |s| > 0 {
      FilterAll(s[1..], keep);
      assert [s[0]] + s[1..] == s;
    }
  }

  /** The first element always survives deduplication, in first place. */
  lemma DedupHead<T>(s: seq<T>)
    requires |s| > 0
    ensures |Dedup(s)| > 0 && Dedup(s)[0] == s[0]
  {
    var r := Dedup(s);
    assert FirstIndex(s, s[0]) == 0;
    forall k | 0 < k < |r|
      ensures r[k] != s[0]
    {
      assert FirstIndex(s, r[0]) < FirstIndex(s, r[k]);
    }
    assert s[0] in r;
  }

  /** A non-empty run of one value deduplicates to that value alone. */
  lemma DedupConstant<T>(s: seq<T>, x: T)
    requires |s| > 0 && forall i :: 0 <= i < |s| ==> s[i] == x
    ensures Dedup(s) == [x]
  {
    var r := Dedup(s);
    DedupHead(s);
  }
}

=== FILE: shift_reports.dfy ===
/** The sales aggregation behind X- and Z-reports: the transactions of a time
    window and their per-payment-method sums. */
module ShiftReports {
  import opened Records
  import opened Seqs

  /** `where('offlineCreatedAt').between(from, to)`: the lower bound is
      included and the upper bound excluded. */
  predicate InWindow(t: Transaction, from: int, to: int) {
    from <= t.offlineCreatedAt < to
  }

  function WindowTest(from: int, to: int): Transaction -> bool {
    t => InWindow(t, from, to)
  }

  /** The transactions created in `[from, to)`, in insertion order. */
  function Window(txs: seq<Transaction>, from: int, to: int): (r: seq<Transaction>)
    ensures |r| <= |txs|
    ensures forall i :: 0 <= i < |r| ==> InWindow(r[i], from, to) && r[i] in txs
    ensures forall i :: 0 <= i < |txs| && InWindow(txs[i], from, to) ==> txs[i] in r
    ensures SubsequenceOf(r, txs)
  {
    Filter(txs, WindowTest(from, to))
  }

  /** The window holds every transaction of `[from, to)` as often as the table
      does, and nothing else. */
  lemma WindowCounts(txs: seq<Transaction>, from: int, to: int)
    ensures forall x :: (multiset(Window(txs, from, to))[x] ==
      if InWindow(x, from, to) then multiset(txs)[x] else 0)
  {
    FilterCounts(txs, WindowTest(from, to));
  }


  /** Sum of `paymentAmount`. */
  function SumPaid(txs: seq<Transaction>): (r: real)
    ensures (forall i :: 0 <= i < |txs| ==> txs[i].paymentAmount >= 0.0) ==> r >= 0.0
  {
    if |txs| == 0 then 0.0
    else
      assert forall i :: 1 <= i < |txs| ==> txs[i] == txs[1..][i - 1];
      txs[0].paymentAmount + SumPaid(txs[1..])
  }

  function PaidWith(paid: PaymentMethod): Transaction -> bool {
    (t: Transaction) => t.paymentMethod == paid
  }

  /** One more transaction at the end adds its amount to the sum. */
  lemma {:induction false} SumPaidAppendOne(txs: seq<Transaction>, t: Transaction)
    ensures SumPaid(txs + [t]) == SumPaid(txs) + t.paymentAmount
  {
    if |txs| == 0 {
      assert txs + [t] == [t];
      assert [t][1..] == [];
    } else {
      assert (txs + [t])[1..] == txs[1..] + [t];
      SumPaidAppendOne(txs[1..], t);
    }
  }

  /** The sum over two runs of transactions is the sum of their sums. */
  lemma {:induction false} SumPaidConcat(a: seq<Transaction>, b: seq<Transaction>)
    ensures SumPaid(a + b) == SumPaid(a) + SumPaid(b)
  {
    if |a| == 0 {
      assert a + b == b;
    } else {
      assert (a + b)[1..] == a[1..] + b;
      SumPaidConcat(a[1..], b);
    }
  }

  /** The sum does not depend on the order of the transactions. */
  lemma {:induction false} SumPaidOrderFree(a: seq<Transaction>, b: seq<Transaction>)
    requires multiset(a) == multiset(b)
    ensures SumPaid(a) == SumPaid(b)
    decreases |a|
  {
    if |a| == 0 {
      assert |b| == |multiset(b)| == 0;
    } else {
      var x := a[0];
      assert x in multiset(b);
      var j :| 0 <= j < |b| && b[j] == x;
      var front, back := b[..j], b[j + 1..];
      assert b == front + [x] + back;
      SumPaidRemove(front, x, back);
      MultisetRemoveFirst(a, front, back);
      SumPaidOrderFree(a[1..], front + back);
    }
  }

  /** Taking one transaction out of the middle lowers the sum by its amount. */
  lemma SumPaidRemove(front: seq<Transaction>, x: Transaction, back: seq<Transaction>)
    ensures SumPaid(front + [x] + back) == SumPaid(front + back) + x.paymentAmount
  {
    assert [x][1..] == [];
    SumPaidConcat(front + [x], back);
    SumPaidConcat(front, [x]);
    SumPaidConcat(front, back);
  }

  /** Sum of `paymentAmount` over the transactions paid by `paid`. */
  function SumPaidBy(txs: seq<Transaction>, paid: PaymentMethod): real {
    if |txs| == 0 then 0.0
    else (if txs[0].paymentMethod == paid then txs[0].paymentAmount else 0.0) + SumPaidBy(txs[1..], paid)
  }

  /** The per-method sum is the sum over the transactions of that method,
      filtered first and then summed. */
  lemma {:induction false} SumPaidByIsFilteredSum(txs: seq<Transaction>, paid: PaymentMethod)
    ensures SumPaidBy(txs, paid) == SumPaid(Filter(txs, PaidWith(paid)))
  {
    if |txs| > 0 {
      SumPaidByIsFilteredSum(txs[1..], paid);
      var rest := Filter(txs[1..], PaidWith(paid));
      assert ([txs[0]] + rest)[1..] == rest;
    }
  }

  /** The four per-method sums partition the total. */
  lemma {:induction false} MethodSumsPartition(txs: seq<Transaction>)
    ensures SumPaid(txs)
         == SumPaidBy(txs, Cash) + SumPaidBy(txs, Card) + SumPaidBy(txs, BankTransfer) + SumPaidBy(txs, Mobile)
  {
    if |txs| > 0 {
      MethodSumsPartition(txs[1..]);
    }
  }

  /** The sales figures of an X-report over the window's transactions. */
  function XReportOf(window: seq<Transaction>, id: string, now: int, generatedBy: string): (r: XReport)
    ensures r.salesCount == |window|
    ensures r.cashTotal + r.cardTotal + r.transferTotal == r.salesTotal - SumPaidBy(window, Mobile)
  {
    MethodSumsPartition(window);
    XReport(id, now, generatedBy, |window|, SumPaid(window),
      SumPaidBy(window, Cash), SumPaidBy(window, Card), SumPaidBy(window, BankTransfer))
  }

  /** A Z-report: the same sales figures plus the cash reconciliation. */
  function ZReportOf(window: seq<Transaction>, id: string, now: int, generatedBy: string,
                     approvedBy: Option<string>, expectedCash: real, actualCash: real): (r: ZReport)
    ensures r.salesCount == |window|
    ensures r.cashTotal + r.cardTotal + r.transferTotal == r.salesTotal - SumPaidBy(window, Mobile)
    ensures r.expectedCash == expectedCash && r.actualCash == actualCash
    ensures r.variance == r.actualCash - r.expectedCash
    ensures r.approvedAt.Some? <==> approvedBy.Some? && approvedBy.value != ""
  {
    MethodSumsPartition(window);
    var approvedAt := if approvedBy.Some? && approvedBy.value != "" then Some(now) else None;
    ZReport(id, now, generatedBy, approvedBy, approvedAt, |window|, SumPaid(window),
      SumPaidBy(window, Cash), SumPaidBy(window, Card), SumPaidBy(window, BankTransfer),
      expectedCash, actualCash, actualCash - expectedCash)
  }
}

=== FILE: shift_store.dfy ===
/** The shift store: the register shift the logged-in user has open, kept both
    in memory (`currentShift`) and as a row of the shifts table. */
module ShiftLedger {
  import opened Records
  import opened Storage
  import opened Identity
  import opened ShiftReports

  /** An open shift at the user's location that the user opened. */
  predicate IsOwnOpenShift(s: Shift, u: User) {
    s.locationId == u.locationId && s.status == Open && s.openedBy == u.id
  }

  /** The shift `openShift` creates: the expected cash starts at the float. */
  function OpenedShift(id: string, registerId: string, u: User, openingFloat: real, now: int): (s: Shift)
    ensures IsOwnOpenShift(s, u) && s.id == id
    ensures s.expectedCash == s.openingFloat == openingFloat
    ensures s.salesCount == 0 && s.salesTotal == 0.0 && s.xReports == [] && s.zReport == None
    ensures s.closedBy == None && s.actualCash == None && s.cashDifference == None
  {
    Shift(id, registerId, u.locationId, u.id, u.name, now, None, None, None,
      openingFloat, openingFloat, None, None, 0, 0.0, Open, [], None, SyncPending)
  }

  /** The shift `closeShift` writes: closed by `u`, with the counted cash and its difference. */
  function ClosedShift(s: Shift, u: User, actualCash: real, now: int): (c: Shift)
    ensures c.status == Closed && c.closedBy == Some(u.id) && c.closedAt == Some(now)
    ensures c.actualCash == Some(actualCash)
    ensures c.cashDifference == Some(actualCash - s.expectedCash)
    ensures c.id == s.id && c.expectedCash == s.expectedCash && c.salesCount == s.salesCount
    ensures c.salesTotal == s.salesTotal && c.xReports == s.xReports && c.zReport == s.zReport
  {
    s.(closedBy := Some(u.id), closedByName := Some(u.name), closedAt := Some(now),
       actualCash := Some(actualCash), cashDifference := Some(actualCash - s.expectedCash),
       status := Closed)
  }

  /** One more sale of `amount`: the count, the sales total and the expected cash all grow. */
  function WithSale(s: Shift, amount: real): (t: Shift)
    ensures t.salesCount == s.salesCount + 1
    ensures t.salesTotal == s.salesTotal + amount
    ensures t.expectedCash == s.expectedCash + amount
    ensures t.expectedCash - t.salesTotal == s.expectedCash - s.salesTotal
  {
    s.(salesCount := s.salesCount + 1, salesTotal := s.salesTotal + amount,
       expectedCash := s.expectedCash + amount)
  }

  /** `shifts.update(id, fields)` with the fields of `s` written over `row`: the
      stored zReport survives when `s` carries none (the key is then absent
      from the written object). */
  function MergeShiftRow(row: Shift, s: Shift): (r: Shift)
    ensures s.zReport.Some? ==> r == s
    ensures s.zReport.None? ==> r == s.(zReport := row.zReport)
  {
    if s.zReport.Some? then s else s.(zReport := row.zReport)
  }

  /** The shifts table after writing the whole of `s` over its row, if the row is there. */
  function WriteShift(shifts: map<string, Shift>, s: Shift): (r: map<string, Shift>)
    ensures r.Keys == shifts.Keys
    ensures s.id in shifts ==> r[s.id] == MergeShiftRow(shifts[s.id], s)
    ensures forall k :: k in shifts && k != s.id ==> r[k] == shifts[k]
  {
    if s.id in shifts then shifts[s.id := MergeShiftRow(shifts[s.id], s)] else shifts
  }

  /** The row's sales counters and cash agree with the in-memory shift. */
  predicate RowAgrees(row: Shift, s: Shift) {
    row.expectedCash == s.expectedCash && row.salesCount == s.salesCount
    && row.salesTotal == s.salesTotal && row.xReports == s.xReports
  }

  /** The row after `updateSalesTotal` writes the three counters of the
      in-memory shift `t` over it. */
  function SaleRow(row: Shift, t: Shift): (r: Shift)
    ensures r.salesCount == t.salesCount && r.salesTotal == t.salesTotal && r.expectedCash == t.expectedCash
    ensures r.id == row.id && r.status == row.status && r.xReports == row.xReports && r.zReport == row.zReport
  {
    row.(salesCount := t.salesCount, salesTotal := t.salesTotal, expectedCash := t.expectedCash)
  }

  /** The counters a sale writes come from the in-memory copy, so a change
      made to the row's expected cash alone does not survive the next sale. */
  lemma SaleOverwritesRowCash(row: Shift, s: Shift, amount: real)
    requires row.expectedCash != s.expectedCash
    ensures SaleRow(row, WithSale(s, amount)).expectedCash != row.expectedCash + amount
    ensures SaleRow(row, WithSale(s, amount)).expectedCash == s.expectedCash + amount
  {
  }

  class ShiftStore {
    var currentShift: Option<Shift>
    var isLoading: bool
    var error: Option<string>
    const db: Db
    const auth: AuthStore

    constructor (db: Db, auth: AuthStore)
      ensures this.db == db && this.auth == auth
      ensures currentShift == None && !isLoading && error == None
    {
      this.db, this.auth := db, auth;
      currentShift, isLoading, error := None, false, None;
    }

    /** The in-memory shift has a row, and the row holds the same counters. */
    ghost predicate InSync()
      reads this, db
    {
      currentShift.Some? ==>
        currentShift.value.id in db.shifts && RowAgrees(db.shifts[currentShift.value.id], currentShift.value)
    }

    /** loadCurrentShift: some open shift of the user at the user's location, if any. */
    method LoadCurrentShift()
      requires db.Valid()
      modifies this`currentShift, this`isLoading
      ensures !isLoading
      ensures auth.user.None? ==> currentShift == None
      ensures auth.user.Some? ==>
        (currentShift.Some? <==> exists k :: k in db.shifts && IsOwnOpenShift(db.shifts[k], auth.user.value))
      ensures currentShift.Some? ==>
        currentShift.value.id in db.shifts && db.shifts[currentShift.value.id] == currentShift.value
        && IsOwnOpenShift(currentShift.value, auth.user.value)
      ensures InSync()
    {
      isLoading := true;
      if auth.user.None? {
        isLoading, currentShift := false, None;
        return;
      }
      var u := auth.user.value;
      if k :| k in db.shifts && IsOwnOpenShift(db.shifts[k], u) {
        currentShift := Some(db.shifts[k]);
      } else {
        currentShift := None;
      }
      isLoading := false;
    }

    /** openShift: a new open shift row, an outbox item carrying it, and the
        shift becomes current.  An open shift already held is not checked for. */
    method OpenShift(registerId: string, openingFloat: real, id: string, now: int)
      returns (r: Result<Shift>)
      requires db.Valid() && id !in db.shifts
      modifies this`currentShift, db`shifts, db`syncQueue, db`nextSyncId
      ensures db.Valid()
      ensures auth.user.None? ==>
        r == Err(NotAuthenticated) && unchanged(this) && unchanged(db)
      ensures auth.user.Some? ==>
        var s := OpenedShift(id, registerId, auth.user.value, openingFloat, now);
        && r == Ok(s) && currentShift == Some(s)
        && db.shifts == old(db.shifts)[id := s]
        && db.syncQueue == old(db.syncQueue)
             + [SyncItem(old(db.nextSyncId), ShiftEntity, id, ShiftPayload(OpenAction, s), 0, now, None)]
        && InSync()
    {
      if auth.user.None? {
        return Err(NotAuthenticated);
      }
      var s := OpenedShift(id, registerId, auth.user.value, openingFloat, now);
      db.shifts := db.shifts[id := s];
      var _ := db.AddSyncItem(ShiftEntity, id, ShiftPayload(OpenAction, s), now);
      currentShift := Some(s);
      r := Ok(s);
    }

    /** closeShift: the current shift, closed with the counted cash, is written
        over its row (from the in-memory copy) and queued; no shift is current after. */
    method CloseShift(actualCash: real, now: int) returns (o: Outcome)
      requires db.Valid()
      modifies this`currentShift, db`shifts, db`syncQueue, db`nextSyncId
      ensures db.Valid()
      ensures old(currentShift).None? || auth.user.None? ==>
        o == Refused(NoActiveShift) && unchanged(this) && unchanged(db)
      ensures old(currentShift).Some? && auth.user.Some? ==>
        var closed := ClosedShift(old(currentShift).value, auth.user.value, actualCash, now);
        && o == Done && currentShift == None
        && db.shifts == WriteShift(old(db.shifts), closed)
        && db.syncQueue == old(db.syncQueue)
             + [SyncItem(old(db.nextSyncId), ShiftEntity, closed.id, ShiftPayload(CloseAction, closed), 0, now, None)]
    {
      if currentShift.None? || auth.user.None? {
        return Refused(NoActiveShift);
      }
      var closed := ClosedShift(currentShift.value, auth.user.value, actualCash, now);
      db.shifts := WriteShift(db.shifts, closed);
      var _ := db.AddSyncItem(ShiftEntity, closed.id, ShiftPayload(CloseAction, closed), now);
      currentShift := None;
      o := Done;
    }

    /** generateXReport: sales of `[openedAt, now)` appended to the shift's
        X-reports, in memory and on the row; the shift stays open. */
    method GenerateXReport(reportId: string, now: int) returns (r: Result<XReport>)
      requires db.Valid()
      modifies this`currentShift, db`shifts
      ensures db.Valid()
      ensures old(currentShift).None? || auth.user.None? ==>
        r == Err(NoActiveShift) && unchanged(this) && unchanged(db)
      ensures old(currentShift).Some? && auth.user.Some? ==>
        var s := old(currentShift).value;
        var report := XReportOf(Window(db.transactions, s.openedAt, now), reportId, now, auth.user.value.name);
        && r == Ok(report)
        && currentShift == Some(s.(xReports := s.xReports + [report]))
        && db.shifts == (if s.id in old(db.shifts)
             then old(db.shifts)[s.id := old(db.shifts)[s.id].(xReports := s.xReports + [report])]
             else old(db.shifts))
      ensures old(InSync()) ==> InSync()
    {
      if currentShift.None? || auth.user.None? {
        return Err(NoActiveShift);
      }
      var s := currentShift.value;
      var report := XReportOf(Window(db.transactions, s.openedAt, now), reportId, now, auth.user.value.name);
      var xReports := s.xReports + [report];
      if s.id in db.shifts {
        db.shifts := db.shifts[s.id := db.shifts[s.id].(xReports := xReports)];
      }
      currentShift := Some(s.(xReports := xReports));
      r := Ok(report);
    }

    /** generateZReport: the Z-report is stored on the row, then the shift is
        closed with the same counted cash; no shift is current after, so a
        second Z-report is refused. */
    method GenerateZReport(actualCash: real, approvedBy: Option<string>, reportId: string, now: int)
      returns (r: Result<ZReport>)
      requires db.Valid()
      modifies this`currentShift, db`shifts, db`syncQueue, db`nextSyncId
      ensures db.Valid()
      ensures old(currentShift).None? || auth.user.None? ==>
        r == Err(NoActiveShift) && unchanged(this) && unchanged(db)
      ensures old(currentShift).Some? && auth.user.Some? ==>
        var s := old(currentShift).value;
        var report := ZReportOf(Window(db.transactions, s.openedAt, now), reportId, now,
          auth.user.value.name, approvedBy, s.expectedCash, actualCash);
        var closed := ClosedShift(s, auth.user.value, actualCash, now);
        && r == Ok(report) && currentShift == None
        && db.shifts == WriteShift(UpdateRow(old(db.shifts), s.id,
             if s.id in old(db.shifts) then old(db.shifts)[s.id].(zReport := Some(report)) else s), closed)
        && db.syncQueue == old(db.syncQueue)
             + [SyncItem(old(db.nextSyncId), ShiftEntity, s.id, ShiftPayload(CloseAction, closed), 0, now, None)]
      ensures (old(currentShift).Some? && auth.user.Some? && old(currentShift).value.zReport.None?
        && old(currentShift).value.id in old(db.shifts)) ==>
        var id := old(currentShift).value.id;
        && db.shifts[id].status == Closed
        && db.shifts[id].zReport == Some(r.value)
        && db.shifts[id].cashDifference == Some(r.value.variance)
    {
      if currentShift.None? || auth.user.None? {
        return Err(NoActiveShift);
      }
      var s := currentShift.value;
      var report := ZReportOf(Window(db.transactions, s.openedAt, now), reportId, now,
        auth.user.value.name, approvedBy, s.expectedCash, actualCash);
      if s.id in db.shifts {
        db.shifts := db.shifts[s.id := db.shifts[s.id].(zReport := Some(report))];
      }
      var o := CloseShift(actualCash, now);
      r := Ok(report);
    }

    /** updateSalesTotal: one more sale of `amount` on the in-memory shift, and
        its three counters written over the row; nothing without a current shift. */
    method UpdateSalesTotal(amount: real)
      requires db.Valid()
      modifies this`currentShift, db`shifts
      ensures db.Valid()
      ensures old(currentShift).None? ==> unchanged(this) && unchanged(db)
      ensures old(currentShift).Some? ==>
        var t := WithSale(old(currentShift).value, amount);
        && currentShift == Some(t)
        && db.shifts == (if t.id in old(db.shifts)
             then old(db.shifts)[t.id := SaleRow(old(db.shifts)[t.id], t)]
             else old(db.shifts))
      ensures old(InSync()) ==> InSync()
    {
      if currentShift.None? {
        return;
      }
      var t := WithSale(currentShift.value, amount);
      if t.id in db.shifts {
        db.shifts := db.shifts[t.id := SaleRow(db.shifts[t.id], t)];
      }
      currentShift := Some(t);
    }
  }
}

=== FILE: storage.dfy ===
/** The terminal's local tables.  Keyed tables are maps; the transactions
    table (range-queried by time) is a sequence in insertion order, and the
    outbox (read in key order) a sequence in key order.  Only the table
    operations the core uses are modelled. */
module Storage {
  import opened Records
  import opened Seqs

  /** `table.update(key, changes)`: a row that is not there is left alone. */
  function UpdateRow<V>(m: map<string, V>, key: string, row: V): (r: map<string, V>)
    ensures r.Keys == m.Keys
    ensures key in m ==> r[key] == row
    ensures forall k :: k in m && k != key ==> r[k] == m[k]
  {
    if key in m then m[key := row] else m
  }

  /** Outbox keys strictly increase along the table and stay below the next key to hand out. */
  predicate QueueOrdered(q: seq<SyncItem>, next: nat) {
    && (forall i, j :: 0 <= i < j < |q| ==> q[i].id < q[j].id)
    && (forall i :: 0 <= i < |q| ==> q[i].id < next)
  }

  /** No item of `q` has key `id`. */
  predicate KeyAbsent(q: seq<SyncItem>, id: nat) {
    forall i :: 0 <= i < |q| ==> q[i].id != id
  }

  /** `syncQueue.delete(id)`. */
  function RemoveItem(q: seq<SyncItem>, id: nat): (r: seq<SyncItem>)
    ensures |r| <= |q|
    ensures KeyAbsent(r, id)
    ensures forall i :: 0 <= i < |q| && q[i].id != id ==> q[i] in r
    ensures SubsequenceOf(r, q)
  {
    if |q| == 0 then []
    else
      var rest := RemoveItem(q[1..], id);
      assert forall i :: 1 <= i < |q| ==> q[i] == q[1..][i - 1];
      if q[0].id == id then rest
      else
        assert ([q[0]] + rest)[1..] == rest;
        [q[0]] + rest
  }

  /** `syncQueue.update(id, ...)`: the row with key `id` becomes `item`. */
  function ReplaceItem(q: seq<SyncItem>, id: nat, item: SyncItem): (r: seq<SyncItem>)
    ensures |r| == |q|
    ensures forall i :: 0 <= i < |q| ==> r[i] == if q[i].id == id then item else q[i]
  {
    seq(|q|, i requires 0 <= i < |q| => if q[i].id == id then item else q[i])
  }

  lemma {:induction false} RemoveItemAbsent(q: seq<SyncItem>, id: nat)
    requires KeyAbsent(q, id)
    ensures RemoveItem(q, id) == q
  {
    if |q| > 0 {
      RemoveItemAbsent(q[1..], id);
      assert [q[0]] + q[1..] == q;
    }
  }

  lemma {:induction false} RemoveItemAppend(a: seq<SyncItem>, b: seq<SyncItem>, id: nat)
    ensures RemoveItem(a + b, id) == RemoveItem(a, id) + RemoveItem(b, id)
  {
    if |a| > 0 {
      assert (a + b)[1..] == a[1..] + b;
      RemoveItemAppend(a[1..], b, id);
    } else {
      assert a + b == b;
    }
  }

  /** Deleting the key of an item that occurs once removes just that item. */
  lemma RemoveOnly(a: seq<SyncItem>, x: SyncItem, b: seq<SyncItem>)
    requires KeyAbsent(a, x.id) && KeyAbsent(b, x.id)
    ensures RemoveItem(a + [x] + b, x.id) == a + b
  {
    var id := x.id;
    RemoveSingle(x);
    RemoveItemAbsent(a, id);
    RemoveItemAbsent(b, id);
    RemoveItemAppend(a, [x], id);
    assert RemoveItem(a + [x], id) == a;
    RemoveItemAppend(a + [x], b, id);
  }

  lemma RemoveSingle(x: SyncItem)
    ensures RemoveItem([x], x.id) == []
  {
    assert [x][1..] == [];
  }

  /** Updating the key of an item that occurs once replaces just that item. */
  lemma ReplaceOnly(a: seq<SyncItem>, x: SyncItem, b: seq<SyncItem>, y: SyncItem)
    requires KeyAbsent(a, x.id) && KeyAbsent(b, x.id)
    ensures ReplaceItem(a + [x] + b, x.id, y) == a + [y] + b
  {
    var q := a + [x] + b;
    var r := ReplaceItem(q, x.id, y);
    assert forall i :: 0 <= i < |q| ==> r[i] == (a + [y] + b)[i] by {
      forall i | 0 <= i < |q|
        ensures r[i] == (a + [y] + b)[i]
      {
        if i < |a| {
          assert q[i] == a[i];
        } else if i > |a| {
          assert q[i] == b[i - |a| - 1];
        }
      }
    }
  }

  /** True when some transaction row has key `id`. */
  predicate HasTransaction(txs: seq<Transaction>, id: string) {
    exists i :: 0 <= i < |txs| && txs[i].id == id
  }

  class Db {
    var products: map<string, Product>
    var carts: map<string, Cart>
    var transactions: seq<Transaction>
    var shifts: map<string, Shift>
    var syncQueue: seq<SyncItem>
    var nextSyncId: nat
    var adjustments: map<string, InventoryAdjustment>
    var movements: map<string, CashMovement>

    /** Every keyed row is stored under its own id. */
    ghost predicate RowsKeyed()
      reads this
    {
      && (forall k :: k in carts ==> carts[k].id == k)
      && (forall k :: k in shifts ==> shifts[k].id == k)
      && (forall k :: k in adjustments ==> adjustments[k].id == k)
      && (forall k :: k in movements ==> movements[k].id == k)
    }

    /** Rows are keyed by their ids and the outbox is in key order. */
    ghost predicate Valid()
      reads this
    {
      RowsKeyed() && QueueOrdered(syncQueue, nextSyncId)
    }

    constructor ()
      ensures Valid()
      ensures products == map[] && carts == map[] && transactions == [] && shifts == map[]
      ensures syncQueue == [] && adjustments == map[] && movements == map[]
    {
      products, carts, transactions, shifts := map[], map[], [], map[];
      syncQueue, nextSyncId := [], 0;
      adjustments, movements := map[], map[];
    }

    /** `syncQueue.add({...})` with `retries: 0`: the new row gets the next key. */
    method AddSyncItem(entityType: EntityType, entityId: string, payload: Payload, createdAt: int)
      returns (item: SyncItem)
      requires Valid()
      modifies this`syncQueue, this`nextSyncId
      ensures Valid()
      ensures item == SyncItem(old(nextSyncId), entityType, entityId, payload, 0, createdAt, None)
      ensures syncQueue == old(syncQueue) + [item]
      ensures nextSyncId == old(nextSyncId) + 1
    {
      item := SyncItem(nextSyncId, entityType, entityId, payload, 0, createdAt, None);
      syncQueue := syncQueue + [item];
      nextSyncId := nextSyncId + 1;
    }
  }
}

=== FILE: supervisor.dfy ===
/** The supervisor dashboard: its access gate, its figures, and the approval
    of pending stock and cash requests. */
module Supervisor {
  import opened Records
  import opened Seqs
  import opened Storage
  import opened Identity
  import opened ShiftReports
  import opened Adjustments
  import opened Movements

  /** The dashboard is shown to users who may view reports or grant approvals. */
  predicate CanViewDashboard(user: Option<User>) {
    Permits(user, ReportsView) || Permits(user, ApprovalGrant)
  }

  lemma DashboardAccess(locationId: string)
    ensures !CanViewDashboard(None)
    ensures !CanViewDashboard(Some(SessionUser(AccountFor("cashier").value, locationId)))
    ensures CanViewDashboard(Some(SessionUser(AccountFor("supervisor").value, locationId)))
    ensures CanViewDashboard(Some(SessionUser(AccountFor("manager").value, locationId)))
  {
    BuiltInApprovalRights(locationId);
    var cashier := AccountFor("cashier").value.permissions;
    assert forall i :: 0 <= i < |cashier| ==> cashier[i] != ReportsView by {
      assert cashier[0][4] != ReportsView[4];
      assert cashier[1][4] != ReportsView[4];
      assert cashier[2][6] != ReportsView[6];
    }
  }

  function TodayTest(todayStart: int): Transaction -> bool {
    (t: Transaction) => t.offlineCreatedAt > todayStart
  }

  /** `where('offlineCreatedAt').above(todayStart)`: strictly after the start of the day. */
  function TodayTransactions(txs: seq<Transaction>, todayStart: int): (r: seq<Transaction>)
    ensures |r| <= |txs|
    ensures forall i :: 0 <= i < |r| ==> r[i].offlineCreatedAt > todayStart && r[i] in txs
    ensures forall i :: 0 <= i < |txs| && txs[i].offlineCreatedAt > todayStart ==> txs[i] in r
    ensures SubsequenceOf(r, txs)
  {
    Filter(txs, TodayTest(todayStart))
  }

  /** Today's list holds every transaction of the day as often as the table
      does, and nothing else. */
  lemma TodayCounts(txs: seq<Transaction>, todayStart: int)
    ensures forall x :: (multiset(TodayTransactions(txs, todayStart))[x] ==
      if x.offlineCreatedAt > todayStart then multiset(txs)[x] else 0)
  {
    FilterCounts(txs, TodayTest(todayStart));
  }

  /** The day's takings and sale count as the dashboard shows them. */
  function TodaySales(txs: seq<Transaction>, todayStart: int): (r: real)
    ensures (forall i :: 0 <= i < |txs| ==> txs[i].paymentAmount >= 0.0) ==> r >= 0.0
    ensures (forall i :: 0 <= i < |txs| ==> txs[i].offlineCreatedAt <= todayStart) ==> r == 0.0
  {
    var today := TodayTransactions(txs, todayStart);
    assert forall i :: 0 <= i < |today| ==> exists j :: 0 <= j < |txs| && txs[j] == today[i];
    SumPaid(today)
  }

  function TodayCount(txs: seq<Transaction>, todayStart: int): (r: nat)
    ensures r <= |txs|
    ensures r == |txs| <==> forall i :: 0 <= i < |txs| ==> txs[i].offlineCreatedAt > todayStart
    ensures r == 0 <==> forall i :: 0 <= i < |txs| ==> txs[i].offlineCreatedAt <= todayStart
  {
    var today := TodayTransactions(txs, todayStart);
    assert forall i :: 0 <= i < |today| ==> exists j :: 0 <= j < |txs| && txs[j] == today[i];
    FilterKeepsAll(txs, TodayTest(todayStart));
    |today|
  }

  /** A sale made at the very start of the day is not counted that day. */
  lemma SaleAtMidnightNotCounted(t: Transaction, todayStart: int)
    requires t.offlineCreatedAt == todayStart
    ensures TodayCount([t], todayStart) == 0 && TodaySales([t], todayStart) == 0.0
  {
  }

  /** Adding one more sale of today raises the day's count by one and its takings by the amount. */
  lemma TodayGrowsByOneSale(txs: seq<Transaction>, t: Transaction, todayStart: int)
    requires t.offlineCreatedAt > todayStart
    ensures TodayCount(txs + [t], todayStart) == TodayCount(txs, todayStart) + 1
    ensures TodaySales(txs + [t], todayStart) == TodaySales(txs, todayStart) + t.paymentAmount
  {
    FilterAppendOne(txs, t, TodayTest(todayStart));
    SumPaidAppendOne(TodayTransactions(txs, todayStart), t);
  }

  /** Ids of the pending adjustments at the user's location (no user: location ""). */
  function PendingAdjustmentIds(adjustments: map<string, InventoryAdjustment>, user: Option<User>): (r: set<string>)
    ensures forall k :: k in r <==>
      k in adjustments && adjustments[k].status == PendingApproval
      && adjustments[k].locationId == (if user.Some? then user.value.locationId else "")
  {
    var location := if user.Some? then user.value.locationId else "";
    set k | k in adjustments && adjustments[k].status == PendingApproval && adjustments[k].locationId == location
  }

  function PendingAdjustments(adjustments: map<string, InventoryAdjustment>, user: Option<User>): (r: nat)
    ensures r == 0 <==> forall k :: k in adjustments && adjustments[k].status == PendingApproval ==>
      adjustments[k].locationId != (if user.Some? then user.value.locationId else "")
  {
    |PendingAdjustmentIds(adjustments, user)|
  }

  /** The movements list: the 20 latest by creation time, latest first, read
      from the table in creation-time order. */
  predicate ByCreatedAt(movements: seq<CashMovement>) {
    forall i, j :: 0 <= i < j < |movements| ==> movements[i].createdAt <= movements[j].createdAt
  }

  function RecentMovements(byCreatedAt: seq<CashMovement>): (r: seq<CashMovement>)
    requires ByCreatedAt(byCreatedAt)
    ensures |r| == if |byCreatedAt| < 20 then |byCreatedAt| else 20
    ensures forall i :: 0 <= i < |r| ==> r[i] == byCreatedAt[|byCreatedAt| - 1 - i]
    ensures forall i, j :: 0 <= i < j < |r| ==> r[i].createdAt >= r[j].createdAt
  {
    var n := if |byCreatedAt| < 20 then |byCreatedAt| else 20;
    seq(n, i requires 0 <= i < n => byCreatedAt[|byCreatedAt| - 1 - i])
  }

  /** Pending movements are counted over that list only. */
  function CountPending(movements: seq<CashMovement>): (n: nat)
    ensures n <= |movements|
    ensures n == |movements| <==> forall i :: 0 <= i < |movements| ==> movements[i].status == PendingApproval
  {
    if |movements| == 0 then 0
    else
      assert forall i :: 1 <= i < |movements| ==> movements[i] == movements[1..][i - 1];
      (if movements[0].status == PendingApproval then 1 else 0) + CountPending(movements[1..])
  }

  /** Counting splits over a concatenation: each movement counts on its own. */
  lemma {:induction false} CountPendingAppend(a: seq<CashMovement>, b: seq<CashMovement>)
    ensures CountPending(a + b) == CountPending(a) + CountPending(b)
  {
    if |a| == 0 {
      assert a + b == b;
    } else {
      assert (a + b)[1..] == a[1..] + b;
      CountPendingAppend(a[1..], b);
    }
  }

  /** One movement counts one exactly when it is pending. */
  lemma CountPendingSingle(m: CashMovement)
    ensures CountPending([m]) == if m.status == PendingApproval then 1 else 0
  {
    assert [m][1..] == [];
  }

  function PendingMovements(byCreatedAt: seq<CashMovement>): (n: nat)
    requires ByCreatedAt(byCreatedAt)
    ensures n <= 20
  {
    CountPending(RecentMovements(byCreatedAt))
  }

  /** A list with no pending movement counts none. */
  lemma {:induction false} CountPendingNone(movements: seq<CashMovement>)
    requires forall i :: 0 <= i < |movements| ==> movements[i].status != PendingApproval
    ensures CountPending(movements) == 0
  {
    if |movements| > 0 {
      CountPendingNone(movements[1..]);
    }
  }

  /** An older pending movement falls off the count once twenty newer ones exist. */
  lemma OldPendingNotCounted(older: CashMovement, newer: seq<CashMovement>)
    requires |newer| == 20 && ByCreatedAt([older] + newer)
    requires forall i :: 0 <= i < |newer| ==> newer[i].status == Approved
    ensures PendingMovements([older] + newer) == 0
  {
    var r := RecentMovements([older] + newer);
    assert forall i :: 0 <= i < |r| ==> r[i] == newer[19 - i];
    CountPendingNone(r);
  }

  /** The adjustment after approval by `u`. */
  function ApprovedAdjustment(a: InventoryAdjustment, u: User, now: int): (r: InventoryAdjustment)
    ensures r.status == Approved && r.approvedBy == Some(u.id) && r.approvedByName == Some(u.name)
    ensures r.approvedAt == Some(now)
    ensures r.id == a.id && r.productId == a.productId && r.quantityChange == a.quantityChange
    ensures r.syncStatus == a.syncStatus
  {
    a.(status := Approved, approvedBy := Some(u.id), approvedByName := Some(u.name), approvedAt := Some(now))
  }

  function ApprovedMovement(m: CashMovement, u: User, now: int): (r: CashMovement)
    ensures r.status == Approved && r.approvedBy == Some(u.id) && r.approvedByName == Some(u.name)
    ensures r.approvedAt == Some(now)
    ensures r.id == m.id && r.kind == m.kind && r.amount == m.amount && r.shiftId == m.shiftId
    ensures r.syncStatus == m.syncStatus
  {
    m.(status := Approved, approvedBy := Some(u.id), approvedByName := Some(u.name), approvedAt := Some(now))
  }

  /** Approve a pending adjustment: mark it approved by the user and apply its
      quantity change to the product's stock.  Only pending requests are
      offered for approval; nothing is queued for sync. */
  method ApproveAdjustment(db: Db, auth: AuthStore, id: string, now: int)
    requires db.Valid()
    requires id in db.adjustments ==> db.adjustments[id].status == PendingApproval
    modifies db`adjustments, db`products
    ensures db.Valid()
    ensures auth.user.None? || id !in old(db.adjustments) ==> unchanged(db)
    ensures auth.user.Some? && id in old(db.adjustments) ==>
      var a := old(db.adjustments)[id];
      && db.adjustments == old(db.adjustments)[id := ApprovedAdjustment(a, auth.user.value, now)]
      && db.products == WithStockChange(old(db.products), a.productId, a.quantityChange)
    ensures id in db.adjustments ==> db.adjustments[id].status == (if auth.user.Some? then Approved else PendingApproval)
  {
    if auth.user.None? || id !in db.adjustments {
      return;
    }
    var a := db.adjustments[id];
    db.adjustments := db.adjustments[id := ApprovedAdjustment(a, auth.user.value, now)];
    db.products := WithStockChange(db.products, a.productId, a.quantityChange);
  }

  /** Approve a pending movement: mark it approved by the user and apply its
      cash change to the stored shift row (read from the table). */
  method ApproveMovement(db: Db, auth: AuthStore, id: string, now: int)
    requires db.Valid()
    requires id in db.movements ==> db.movements[id].status == PendingApproval
    modifies db`movements, db`shifts
    ensures db.Valid()
    ensures auth.user.None? || id !in old(db.movements) ==> unchanged(db)
    ensures auth.user.Some? && id in old(db.movements) ==>
      var m := old(db.movements)[id];
      && db.movements == old(db.movements)[id := ApprovedMovement(m, auth.user.value, now)]
      && db.shifts == (if m.shiftId in old(db.shifts)
           then old(db.shifts)[m.shiftId := MovedRow(old(db.shifts)[m.shiftId], old(db.shifts)[m.shiftId],
             CashDelta(m.kind, m.amount))]
           else old(db.shifts))
    ensures id in db.movements ==> db.movements[id].status == (if auth.user.Some? then Approved else PendingApproval)
  {
    if auth.user.None? || id !in db.movements {
      return;
    }
    var m := db.movements[id];
    db.movements := db.movements[id := ApprovedMovement(m, auth.user.value, now)];
    if m.shiftId in db.shifts {
      var row := db.shifts[m.shiftId];
      db.shifts := db.shifts[m.shiftId := MovedRow(row, row, CashDelta(m.kind, m.amount))];
    }
  }
}

=== FILE: sync.dfy ===
/** The sync outbox drain: one pass over the queued items, in key order, with
    the remote call abstracted as a delivery outcome per item. */
module Sync {
  import opened Records
  import opened Storage

  /** What the remote call did with an item: accepted it, answered `false`, or threw. */
  datatype Delivery = Delivered | Refused | Threw

  /** The current `syncItem`: it accepts everything. */
  function StubDelivery(item: SyncItem): Delivery {
    Delivered
  }

  /** The item after a failed attempt: one more retry, stamped; nothing else changes. */
  function Attempted(item: SyncItem, now: int): (r: SyncItem)
    ensures r.retries == item.retries + 1 && r.lastAttempt == Some(now)
    ensures r.id == item.id && r.entityType == item.entityType && r.entityId == item.entityId
    ensures r.payload == item.payload && r.createdAt == item.createdAt
  {
    item.(retries := item.retries + 1, lastAttempt := Some(now))
  }

  /** The outbox keys of `q`. */
  function Ids(q: seq<SyncItem>): set<nat> {
    set j | 0 <= j < |q| :: q[j].id
  }

  /** The queue after a pass over `q`: delivered items are gone, the others
      stay in order, each attempted once more. */
  function AfterPass(q: seq<SyncItem>, deliver: SyncItem -> Delivery, now: int): (r: seq<SyncItem>)
    ensures |r| <= |q|
    ensures forall j :: 0 <= j < |r| ==> r[j].id in Ids(q)
  {
    if |q| == 0 then []
    else
      var init := q[..|q| - 1];
      var last := q[|q| - 1];
      var prev := AfterPass(init, deliver, now);
      assert forall j :: 0 <= j < |prev| ==> prev[j].id in Ids(q) by {
        assert forall k :: 0 <= k < |init| ==> init[k] == q[k];
      }
      prev + (if deliver(last).Delivered? then [] else [Attempted(last, now)])
  }

  /** The entity ids one item adds to the delivered ids of its kind. */
  function ItemIds(item: SyncItem, deliver: SyncItem -> Delivery, kind: EntityType): set<string> {
    if deliver(item).Delivered? && item.entityType == kind then {item.entityId} else {}
  }

  /** Entity ids of `kind` whose items `q` delivers. */
  function DeliveredIds(q: seq<SyncItem>, deliver: SyncItem -> Delivery, kind: EntityType): set<string> {
    if |q| == 0 then {}
    else DeliveredIds(q[..|q| - 1], deliver, kind) + ItemIds(q[|q| - 1], deliver, kind)
  }

  function MarkShift(s: Shift): Shift {
    s.(syncStatus := Synced)
  }

  function MarkAdjustment(a: InventoryAdjustment): InventoryAdjustment {
    a.(syncStatus := Synced)
  }

  function MarkMovement(m: CashMovement): CashMovement {
    m.(syncStatus := Synced)
  }

  /** The keyed table with the rows named in `ids` marked; every other row as it was. */
  function MarkRows<V>(m: map<string, V>, ids: set<string>, mark: V -> V): (r: map<string, V>)
    ensures r.Keys == m.Keys
    ensures forall k :: k in m ==> r[k] == if k in ids then mark(m[k]) else m[k]
  {
    map k | k in m :: if k in ids then mark(m[k]) else m[k]
  }

  /** The transactions with those named in `ids` marked synced at `now`. */
  function MarkTransactions(txs: seq<Transaction>, ids: set<string>, now: int): (r: seq<Transaction>)
    ensures |r| == |txs|
    ensures forall j :: 0 <= j < |txs| ==>
      r[j] == if txs[j].id in ids then txs[j].(syncStatus := Synced, syncedAt := Some(now)) else txs[j]
  {
    seq(|txs|, j requires 0 <= j < |txs| =>
      if txs[j].id in ids then txs[j].(syncStatus := Synced, syncedAt := Some(now)) else txs[j])
  }

  // ----- properties of a pass -----

  /** With the stub delivery a pass empties the queue. */
  lemma {:induction false} StubPassEmptiesQueue(q: seq<SyncItem>, now: int)
    ensures AfterPass(q, StubDelivery, now) == []
  {
    if |q| > 0 {
      StubPassEmptiesQueue(q[..|q| - 1], now);
    }
  }

  /** An item that is not delivered stays, attempted once more. */
  lemma {:induction false} FailedItemStays(q: seq<SyncItem>, deliver: SyncItem -> Delivery, now: int, k: nat)
    requires k < |q| && !deliver(q[k]).Delivered?
    ensures Attempted(q[k], now) in AfterPass(q, deliver, now)
  {
    if k < |q| - 1 {
      FailedItemStays(q[..|q| - 1], deliver, now, k);
    }
  }

  /** Every item left after a pass is an undelivered item of the queue with
      one more retry: retries never decrease and nothing else of it changes. */
  lemma {:induction false} LeftItemsWereRefused(q: seq<SyncItem>, deliver: SyncItem -> Delivery, now: int, j: nat)
    requires j < |AfterPass(q, deliver, now)|
    ensures exists k ::
      0 <= k < |q| && !deliver(q[k]).Delivered? && AfterPass(q, deliver, now)[j] == Attempted(q[k], now)
  {
    var init := q[..|q| - 1];
    var prev := AfterPass(init, deliver, now);
    if j < |prev| {
      LeftItemsWereRefused(init, deliver, now, j);
      var k :| 0 <= k < |init| && !deliver(init[k]).Delivered? && prev[j] == Attempted(init[k], now);
      assert init[k] == q[k];
    } else {
      assert AfterPass(q, deliver, now)[j] == Attempted(q[|q| - 1], now);
    }
  }

  /** A delivery that throws is handled exactly as one that answers `false`. */
  lemma {:induction false} ThrowIsRefusal(q: seq<SyncItem>, d1: SyncItem -> Delivery, d2: SyncItem -> Delivery,
                                          now: int, kind: EntityType)
    requires forall x :: d1(x).Delivered? <==> d2(x).Delivered?
    ensures AfterPass(q, d1, now) == AfterPass(q, d2, now)
    ensures DeliveredIds(q, d1, kind) == DeliveredIds(q, d2, kind)
  {
    if |q| > 0 {
      ThrowIsRefusal(q[..|q| - 1], d1, d2, now, kind);
    }
  }

  /** An item refused on three passes in a row is still queued, three retries up. */
  lemma ThreeFailedPasses(x: SyncItem, d1: SyncItem -> Delivery, d2: SyncItem -> Delivery, d3: SyncItem -> Delivery,
                          n1: int, n2: int, n3: int)
    requires !d1(x).Delivered?
    requires !d2(Attempted(x, n1)).Delivered?
    requires !d3(Attempted(Attempted(x, n1), n2)).Delivered?
    ensures AfterPass(AfterPass(AfterPass([x], d1, n1), d2, n2), d3, n3)
      == [x.(retries := x.retries + 3, lastAttempt := Some(n3))]
  {
    SingleRefusal(x, d1, n1);
    SingleRefusal(Attempted(x, n1), d2, n2);
    SingleRefusal(Attempted(Attempted(x, n1), n2), d3, n3);
  }

  lemma SingleRefusal(x: SyncItem, deliver: SyncItem -> Delivery, now: int)
    requires !deliver(x).Delivered?
    ensures AfterPass([x], deliver, now) == [Attempted(x, now)]
  {
    assert [x][..0] == [];
  }

  // ----- the outbox stays in key order -----

  lemma {:induction false} AfterPassOrdered(q: seq<SyncItem>, deliver: SyncItem -> Delivery, now: int, n: nat)
    requires QueueOrdered(q, n)
    ensures QueueOrdered(AfterPass(q, deliver, now), n)
  {
    if |q| > 0 {
      var init := q[..|q| - 1];
      AfterPassOrdered(init, deliver, now, n);
      var prev := AfterPass(init, deliver, now);
      assert forall j :: 0 <= j < |prev| ==> prev[j].id < q[|q| - 1].id;
    }
  }

  /** The table in the middle of a pass: the passed prefix's leftovers, then the untouched rest. */
  lemma MidPassOrdered(snap: seq<SyncItem>, i: nat, deliver: SyncItem -> Delivery, now: int, n: nat)
    requires QueueOrdered(snap, n) && i <= |snap|
    ensures QueueOrdered(AfterPass(snap[..i], deliver, now) + snap[i..], n)
  {
    var a := AfterPass(snap[..i], deliver, now);
    var b := snap[i..];
    assert QueueOrdered(snap[..i], n);
    AfterPassOrdered(snap[..i], deliver, now, n);
    assert forall j :: 0 <= j < |a| ==> a[j].id in Ids(snap[..i]);
    assert forall j, k :: 0 <= j < |a| && 0 <= k < |b| ==> a[j].id < b[k].id;
  }

  /** Keys left from the passed prefix are all below the key of the next item. */
  lemma PrefixKeysBelow(snap: seq<SyncItem>, i: nat, deliver: SyncItem -> Delivery, now: int, n: nat)
    requires QueueOrdered(snap, n) && i < |snap|
    ensures KeyAbsent(AfterPass(snap[..i], deliver, now), snap[i].id)
    ensures KeyAbsent(snap[i + 1..], snap[i].id)
  {
    var a := AfterPass(snap[..i], deliver, now);
    assert forall j :: 0 <= j < |a| ==> a[j].id in Ids(snap[..i]);
  }

  // ----- one step of the drain -----

  /** The queue after one more item of the snapshot. */
  lemma PassStep(snap: seq<SyncItem>, i: nat, deliver: SyncItem -> Delivery, now: int, n: nat)
    requires QueueOrdered(snap, n) && i < |snap|
    ensures var q := AfterPass(snap[..i], deliver, now) + snap[i..];
      var next := AfterPass(snap[..i + 1], deliver, now) + snap[i + 1..];
      if deliver(snap[i]).Delivered? then RemoveItem(q, snap[i].id) == next
      else ReplaceItem(q, snap[i].id, Attempted(snap[i], now)) == next
  {
    var item := snap[i];
    var done := AfterPass(snap[..i], deliver, now);
    var rest := snap[i + 1..];
    assert snap[..i + 1][..i] == snap[..i];
    assert done + snap[i..] == done + [item] + rest by {
      assert snap[i..] == [item] + rest;
    }
    PrefixKeysBelow(snap, i, deliver, now, n);
    if deliver(item).Delivered? {
      assert AfterPass(snap[..i + 1], deliver, now) == done;
      RemoveOnly(done, item, rest);
    } else {
      assert AfterPass(snap[..i + 1], deliver, now) == done + [Attempted(item, now)];
      ReplaceOnly(done, item, rest, Attempted(item, now));
    }
  }

  lemma DeliveredIdsStep(snap: seq<SyncItem>, i: nat, deliver: SyncItem -> Delivery, kind: EntityType)
    requires i < |snap|
    ensures DeliveredIds(snap[..i + 1], deliver, kind) == DeliveredIds(snap[..i], deliver, kind) + ItemIds(snap[i], deliver, kind)
  {
    assert snap[..i + 1][..i] == snap[..i];
  }

  lemma MarkRowsStep<V>(m: map<string, V>, ids: set<string>, more: set<string>, mark: V -> V)
    requires forall v :: mark(mark(v)) == mark(v)
    ensures MarkRows(MarkRows(m, ids, mark), more, mark) == MarkRows(m, ids + more, mark)
  {
  }

  lemma MarkTransactionsStep(txs: seq<Transaction>, ids: set<string>, more: set<string>, now: int)
    ensures MarkTransactions(MarkTransactions(txs, ids, now), more, now) == MarkTransactions(txs, ids + more, now)
  {
  }

  /** The tables a pass reads and writes. */
  datatype Tables = Tables(
    queue: seq<SyncItem>,
    transactions: seq<Transaction>,
    shifts: map<string, Shift>,
    adjustments: map<string, InventoryAdjustment>,
    movements: map<string, CashMovement>)

  function TablesOf(db: Db): Tables
    reads db
  {
    Tables(db.syncQueue, db.transactions, db.shifts, db.adjustments, db.movements)
  }

  /** One item offered: on delivery its row is deleted and the entity it names
      is marked synced; otherwise its row records one more failed attempt. */
  function Offer(t: Tables, item: SyncItem, deliver: SyncItem -> Delivery, now: int): (r: Tables)
    ensures deliver(item).Delivered? ==> r.queue == RemoveItem(t.queue, item.id)
    ensures !deliver(item).Delivered? ==> r.queue == ReplaceItem(t.queue, item.id, Attempted(item, now))
    ensures r.transactions == MarkTransactions(t.transactions, ItemIds(item, deliver, TransactionEntity), now)
    ensures r.shifts == MarkRows(t.shifts, ItemIds(item, deliver, ShiftEntity), MarkShift)
    ensures r.adjustments == MarkRows(t.adjustments, ItemIds(item, deliver, AdjustmentEntity), MarkAdjustment)
    ensures r.movements == MarkRows(t.movements, ItemIds(item, deliver, MovementEntity), MarkMovement)
  {
    assert MarkTransactions(t.transactions, {}, now) == t.transactions;
    assert MarkRows(t.shifts, {}, MarkShift) == t.shifts;
    assert MarkRows(t.adjustments, {}, MarkAdjustment) == t.adjustments;
    assert MarkRows(t.movements, {}, MarkMovement) == t.movements;
    if deliver(item).Delivered? then
      var q := RemoveItem(t.queue, item.id);
      match item.entityType
      case TransactionEntity => t.(queue := q, transactions := MarkTransactions(t.transactions, {item.entityId}, now))
      case ShiftEntity => t.(queue := q, shifts := MarkRows(t.shifts, {item.entityId}, MarkShift))
      case AdjustmentEntity => t.(queue := q, adjustments := MarkRows(t.adjustments, {item.entityId}, MarkAdjustment))
      case MovementEntity => t.(queue := q, movements := MarkRows(t.movements, {item.entityId}, MarkMovement))
    else
      t.(queue := ReplaceItem(t.queue, item.id, Attempted(item, now)))
  }

  /** The tables once the first `i` items of the snapshot `snap` of the queue
      have been offered, starting from `start`. */
  function Passed(start: Tables, snap: seq<SyncItem>, i: nat, deliver: SyncItem -> Delivery, now: int): Tables
    requires i <= |snap|
  {
    Tables(
      AfterPass(snap[..i], deliver, now) + snap[i..],
      MarkTransactions(start.transactions, DeliveredIds(snap[..i], deliver, TransactionEntity), now),
      MarkRows(start.shifts, DeliveredIds(snap[..i], deliver, ShiftEntity), MarkShift),
      MarkRows(start.adjustments, DeliveredIds(snap[..i], deliver, AdjustmentEntity), MarkAdjustment),
      MarkRows(start.movements, DeliveredIds(snap[..i], deliver, MovementEntity), MarkMovement))
  }

  lemma PassedNone(start: Tables, deliver: SyncItem -> Delivery, now: int)
    ensures Passed(start, start.queue, 0, deliver, now) == start
  {
    assert start.queue[..0] == [] && start.queue[0..] == start.queue;
    assert MarkTransactions(start.transactions, {}, now) == start.transactions;
    assert MarkRows(start.shifts, {}, MarkShift) == start.shifts;
    assert MarkRows(start.adjustments, {}, MarkAdjustment) == start.adjustments;
    assert MarkRows(start.movements, {}, MarkMovement) == start.movements;
  }

  /** Once every item of the snapshot is offered, the tables are the pass's result. */
  lemma PassedAll(start: Tables, deliver: SyncItem -> Delivery, now: int, n: nat)
    requires QueueOrdered(start.queue, n)
    ensures var q := start.queue;
      var p := Passed(start, q, |q|, deliver, now);
      && p.queue == AfterPass(q, deliver, now) && QueueOrdered(p.queue, n)
      && p.transactions == MarkTransactions(start.transactions, DeliveredIds(q, deliver, TransactionEntity), now)
      && p.shifts == MarkRows(start.shifts, DeliveredIds(q, deliver, ShiftEntity), MarkShift)
      && p.adjustments == MarkRows(start.adjustments, DeliveredIds(q, deliver, AdjustmentEntity), MarkAdjustment)
      && p.movements == MarkRows(start.movements, DeliveredIds(q, deliver, MovementEntity), MarkMovement)
  {
    var q := start.queue;
    assert q[..|q|] == q && q[|q|..] == [];
    MidPassOrdered(q, |q|, deliver, now, n);
  }

  /** Offering the next item of the snapshot advances the pass by one item. */
  lemma OfferStep(start: Tables, snap: seq<SyncItem>, i: nat, deliver: SyncItem -> Delivery, now: int, n: nat)
    requires QueueOrdered(snap, n) && i < |snap|
    ensures Offer(Passed(start, snap, i, deliver, now), snap[i], deliver, now) == Passed(start, snap, i + 1, deliver, now)
  {
    var item := snap[i];
    var before := Passed(start, snap, i, deliver, now);
    var after := Passed(start, snap, i + 1, deliver, now);
    var r := Offer(before, item, deliver, now);
    PassStep(snap, i, deliver, now, n);
    DeliveredIdsStep(snap, i, deliver, TransactionEntity);
    DeliveredIdsStep(snap, i, deliver, ShiftEntity);
    DeliveredIdsStep(snap, i, deliver, AdjustmentEntity);
    DeliveredIdsStep(snap, i, deliver, MovementEntity);
    MarkTransactionsStep(start.transactions, DeliveredIds(snap[..i], deliver, TransactionEntity),
      ItemIds(item, deliver, TransactionEntity), now);
    MarkRowsStep(start.shifts, DeliveredIds(snap[..i], deliver, ShiftEntity),
      ItemIds(item, deliver, ShiftEntity), MarkShift);
    MarkRowsStep(start.adjustments, DeliveredIds(snap[..i], deliver, AdjustmentEntity),
      ItemIds(item, deliver, AdjustmentEntity), MarkAdjustment);
    MarkRowsStep(start.movements, DeliveredIds(snap[..i], deliver, MovementEntity),
      ItemIds(item, deliver, MovementEntity), MarkMovement);
  }

  /** One item of the pass (the body of the loop over the snapshot). */
  method SyncOne(db: Db, item: SyncItem, deliver: SyncItem -> Delivery, now: int)
    requires db.RowsKeyed()
    modifies db`syncQueue, db`transactions, db`shifts, db`adjustments, db`movements
    ensures db.RowsKeyed()
    ensures TablesOf(db) == Offer(old(TablesOf(db)), item, deliver, now)
  {
    if deliver(item).Delivered? {
      db.syncQueue := RemoveItem(db.syncQueue, item.id);
      match item.entityType {
        case TransactionEntity =>
          db.transactions := MarkTransactions(db.transactions, {item.entityId}, now);
        case ShiftEntity =>
          db.shifts := MarkRows(db.shifts, {item.entityId}, MarkShift);
        case AdjustmentEntity =>
          db.adjustments := MarkRows(db.adjustments, {item.entityId}, MarkAdjustment);
        case MovementEntity =>
          db.movements := MarkRows(db.movements, {item.entityId}, MarkMovement);
      }
    } else {
      db.syncQueue := ReplaceItem(db.syncQueue, item.id, Attempted(item, now));
    }
  }

  /** processSyncQueue: each item of the queue is offered once, in key order.
      A delivered item is deleted and the entity it names is marked synced
      (a transaction also gets `syncedAt`); any other outcome leaves the item
      queued with one more retry and the attempt time.  `now` stands for the
      clock readings of the pass. */
  method ProcessSyncQueue(db: Db, deliver: SyncItem -> Delivery, now: int)
    requires db.Valid()
    modifies db`syncQueue, db`transactions, db`shifts, db`adjustments, db`movements
    ensures db.Valid()
    ensures db.syncQueue == AfterPass(old(db.syncQueue), deliver, now)
    ensures db.transactions
      == MarkTransactions(old(db.transactions), DeliveredIds(old(db.syncQueue), deliver, TransactionEntity), now)
    ensures db.shifts == MarkRows(old(db.shifts), DeliveredIds(old(db.syncQueue), deliver, ShiftEntity), MarkShift)
    ensures db.adjustments
      == MarkRows(old(db.adjustments), DeliveredIds(old(db.syncQueue), deliver, AdjustmentEntity), MarkAdjustment)
    ensures db.movements
      == MarkRows(old(db.movements), DeliveredIds(old(db.syncQueue), deliver, MovementEntity), MarkMovement)
  {
    var n := db.nextSyncId;
    ghost var start := TablesOf(db);
    var snap := db.syncQueue;
    PassedNone(start, deliver, now);
    var i := 0;
    while i < |snap|
      invariant 0 <= i <= |snap| && snap == start.queue
      invariant db.RowsKeyed() && db.nextSyncId == n && QueueOrdered(snap, n)
      invariant TablesOf(db) == Passed(start, snap, i, deliver, now)
    {
      OfferStep(start, snap, i, deliver, now, n);
      SyncOne(db, snap[i], deliver, now);
      i := i + 1;
    }
    PassedAll(start, deliver, now, n);
  }
}

=== FILE: text.dfy ===
/** The string operations the search filters use: ASCII lower-casing,
    substring containment and JavaScript's notion of a blank string. */
module Text {

  function LowerChar(c: char): char {
    if 'A' <= c <= 'Z' then (c as int + 32) as char else c
  }

  /** `toLowerCase` on ASCII letters; every other character is kept. */
  function Lower(s: string): (r: string)
    ensures |r| == |s|
    ensures forall i :: 0 <= i < |s| ==> r[i] == LowerChar(s[i])
  {
    if |s| == 0 then [] else [LowerChar(s[0])] + Lower(s[1..])
  }

  /** `hay.includes(needle)`: `needle` occurs in `hay` as a contiguous run. */
  predicate Contains(hay: string, needle: string) {
    needle <= hay || (|hay| > 0 && Contains(hay[1..], needle))
  }

  /** `needle` starts at position `k` of `hay`. */
  predicate OccursAt(hay: string, needle: string, k: int) {
    0 <= k <= |hay| - |needle| && hay[k..k + |needle|] == needle
  }

  /** `Contains` means there is a position where `needle` starts. */
  lemma {:induction false} ContainsAt(hay: string, needle: string)
    ensures Contains(hay, needle) <==>
      exists k :: OccursAt(hay, needle, k)
  {
    if needle <= hay {
      assert OccursAt(hay, needle, 0);
    } else if |hay| > 0 {
      ContainsAt(hay[1..], needle);
      if Contains(hay[1..], needle) {
        var k :| OccursAt(hay[1..], needle, k);
        assert OccursAt(hay, needle, k + 1);
      }
      if exists k :: OccursAt(hay, needle, k) {
        var k :| OccursAt(hay, needle, k);
        assert k != 0;
        assert OccursAt(hay[1..], needle, k - 1);
      }
    }
  }

  /** The characters JavaScript's `trim` removes (white space and line terminators). */
  predicate IsJsWhitespace(c: char) {
    c == ' ' || c == '\t' || c == '\n' || c == '\r' || c == '\U{000B}' || c == '\U{000C}'
    || c == '\U{00A0}' || c == '\U{1680}' || ('\U{2000}' <= c <= '\U{200A}')
    || c == '\U{2028}' || c == '\U{2029}' || c == '\U{202F}' || c == '\U{205F}'
    || c == '\U{3000}' || c == '\U{FEFF}'
  }

  /** `!s.trim()`: the string is empty or made only of white space. */
  predicate IsBlank(s: string) {
    forall i :: 0 <= i < |s| ==> IsJsWhitespace(s[i])
  }

  /** A needle holding a character the haystack lacks is not contained in it. */
  lemma MissingCharNotContained(hay: string, needle: string, j: nat)
    requires j < |needle| && needle[j] !in hay
    ensures !Contains(hay, needle)
  {
    ContainsAt(hay, needle);
    forall k | 0 <= k <= |hay| - |needle|
      ensures !OccursAt(hay, needle, k)
    {
      assert hay[k..k + |needle|][j] == hay[k + j];
      assert hay[k + j] in hay;
    }
  }

  /** Every string contains the empty string. */
  lemma EmptyAlwaysContained(hay: string)
    ensures Contains(hay, "")
  {
  }

  /** A string without capital letters is its own lower-case form. */
  lemma LowerOfLower(s: string)
    requires forall i :: 0 <= i < |s| ==> !('A' <= s[i] <= 'Z')
    ensures Lower(s) == s
  {
    assert forall i :: 0 <= i < |s| ==> Lower(s)[i] == s[i];
  }
}
